=== FILE: README.md ===
# simpleS3 request authentication and object-store rules in Dafny

simpleS3 is a small S3-compatible object server. This project models the
parts of `src/main.rs` that carry its logic:

- **`verify_auth`**, the four-way authentication dispatcher. It tries the
  custom `x-amz-access-key`/`x-amz-secret-key` header pair first, then a simple
  `access:secret` `Authorization` value (optionally prefixed with `Bearer `),
  then an AWS Signature Version 4 `Authorization` value, and finally the
  `access_key`/`secret_key` query parameters. The first scheme that applies
  decides the verdict.
- **`verify_aws_v4_signature`**, which:
  - parses the directives of the `Authorization` value;
  - splits the credential into five parts;
  - builds the canonical request and the string to sign;
  - derives the signing key through four HMAC stages;
  - compares lowercase hex signatures.
- **The selection and ETag logic of `list_objects`**, over the entries of the
  data directory.
- **The status and ETag rules of `get_object`, `put_object`,
  `delete_object` and `head_object`**, over a store from keys to contents.

Modelling choices:

- **Primitives.** SHA-256 (FIPS 180-4) and HMAC-SHA256 (RFC 2104) are
  uninterpreted. They are the two fields of a `Digest.Crypto` value that every
  operation takes as a parameter. No property of them is assumed, except in
  the lemmas that state injectivity as a hypothesis (`ShaInjective`,
  `HmacInjective`).
- **Encodings.** `as_bytes` is a concrete UTF-8 encoder, and `hex::encode` a
  concrete lowercase base-16 encoder (section 8 of RFC 4648, in lowercase).
  Both come with decoders and round-trip lemmas.
- **Headers.** A header map is `map<string, Option<string>>`. `None` stands
  for a header that is present but whose value is not visible ASCII, so
  `to_str` fails. A request is method, path, raw query string and headers.
- **Directory listing.** The directory is the sequence of entries
  `read_dir` yields, in its order. Each entry has a name, whether it is a
  regular file, and a size.
- **Object store.** The store is a map from keys to contents. Filesystem
  failures are parameters: the ways `put_object` can fail (`PutFault`),
  whether `fs::read` fails in `get_object` (`ReadFault`), and whether
  `remove_file` fails in `delete_object` (`RemoveFault`).

The model follows the code, including where it departs from the AWS protocol
or from what a reader might expect:

- **Simple scheme.** It splits at the first `:` (`split_once`). So
  `k:a:b` is access key `k` with secret `a:b`, and either side may be empty.
  Any `Authorization` value holding a `:` is taken by this scheme, even one
  that starts with `AWS4-HMAC-SHA256`.
- **Credential scope.** The scope is formatted with `aws4_request` twice
  (`date/region/service/aws4_request/aws4_request`). A client that signs the
  standard four-part scope is rejected.
- **Signed-headers line.** The header lines of the canonical request follow
  the sorted `SignedHeaders` names. The signed-headers line is the directive
  value exactly as sent.
- **Fifth credential component.** It is never compared with anything.
- **`max-keys=0`.** It still lists one object: the length test follows the
  push.
- **Two different ETags.** The listing ETag hashes `file_name:size`. The
  `head_object` ETag hashes `key:length`. The `get_object` and
  `put_object` ETags hash the contents.
- **Rust `split`.** It is modelled exactly: `n` separators give `n + 1`
  pieces, and the empty string splits into one empty piece.

Modules: `Wrappers` (`Option`), `Text` (prefixes, `split`, `split_once`,
`trim`, byte-wise order, decimal rendering), `Encoding` (hex, UTF-8),
`Sorting` (sorting by a string key), `Digest` (primitives, ETags), `Http`
(requests, headers, configured credentials), `SigV4`, `Auth` and
`ObjectStore`.

## Model

| member | source | states |
|---|---|---|
| Auth.VerifyAuth | src/main.rs:203-263 | When both key headers are readable, the verdict is exactly whether both equal the configured keys. Otherwise, when `Authorization` (after an optional `Bearer `) holds a `:`, the verdict is exactly whether it is `access:secret` with an access key free of `:`. Otherwise, an `Authorization` starting with `AWS4-HMAC-SHA256` gets the SigV4 verdict. Otherwise the query-parameter verdict applies. |
| Auth.QueryAuth | src/main.rs:244-258 | The nested scan of `&`-pieces split at their first `=` accepts exactly when the query is non-empty and holds both `access_key=<access>` and `secret_key=<secret>` as pieces, in any order. |
| Auth.Unbearer | src/main.rs:224 | A value starting with `Bearer ` loses exactly that prefix; any other value is kept as it is. |
| Auth.SimpleVerdict | src/main.rs:224-229 | Splitting at the first `:` and comparing both sides accepts exactly `access:secret`, and only when the configured access key has no `:`. |
| Auth.ParamShape | src/main.rs:246-250 | For a key without `=`, a piece splits at its first `=` into that key and a value exactly when it is `key=value`; the value may itself hold `=`. |
| Auth.KeyHeadersIgnoreRest | src/main.rs:210-219 | Once both key headers are readable, changing `Authorization` or the query string never changes the verdict. |
| Auth.SimpleSchemeIgnoresQuery | src/main.rs:222-231 | When the simple scheme applies, the query string cannot change the verdict. |
| Auth.SigV4IgnoresQueryScheme | src/main.rs:233-242 | When the SigV4 scheme applies, valid query credentials do not rescue it: the verdict is the signature check alone. |
| Auth.SimpleSchemeFirstColon | src/main.rs:224-228 | `k:a:b` authenticates access key `k` with secret `a:b`, and does not authenticate access key `k:a` with secret `b`. |
| Auth.BearerAccepted | src/main.rs:224-228 | `Bearer access:secret` is accepted, also with empty access key or secret. |
| Auth.MarkerWithoutSpaceRejected | src/main.rs:116-118 | An `Authorization` without `:` that starts with `AWS4-HMAC-SHA256` but not with `AWS4-HMAC-SHA256 ` is rejected. |
| Auth.NoSchemeRejects | src/main.rs:244-262 | With no key headers, no `Authorization` and an empty query, nothing authenticates. |
| Auth.QueryEitherOrder | src/main.rs:244-258 | The query scheme gives the same verdict for `a&b` and `b&a`. |
| Auth.VerifiedAuthorizationAccepted | src/main.rs:203-242 | An `Authorization` value that passes the signature check, has no `:`, does not start with `Bearer ` and is not itself signed lets the request in, once added to a request without key headers. |
| Auth.SignedRequestAccepted | src/main.rs:93-242 | A client that signs a request with the configured keys and separator-free scope fields, and sends the standard `Authorization` value, is let in by the dispatcher. |
| Auth.PaddingNotSigned | src/main.rs:150-155 | Whitespace around the value of any header other than `x-amz-date`, `x-amz-content-sha256` and the scheme-choosing headers never changes the verdict. |
| SigV4.VerifyV4 | src/main.rs:93-200 | The check rejects a value without the `AWS4-HMAC-SHA256 ` prefix, and a credential that does not split into five parts. Acceptance implies that the first part is the configured access key, and that the signature sent equals the server's signature, which is all lowercase hex. |
| SigV4.AcceptsParsed | src/main.rs:131-200 | Conversely, directives whose credential parses with the configured access key, and whose signature equals the server's, are accepted. |
| SigV4.NoPrefixNoCredential | src/main.rs:116-134 | Without the exact prefix the directive list is one empty part, so the credential does not have five parts. |
| SigV4.ScanPartsTakesLast | src/main.rs:112-128 | Each of the three directives ends as the value in the last part carrying its prefix, or empty when no part carries it. |
| SigV4.KeysExclusive | src/main.rs:121-126 | No part can start with two of the three directive prefixes, so the order of the `if`/`else if` tests does not matter. |
| SigV4.LastValue | src/main.rs:120-128 | A directive has a value exactly when some part starts with its prefix. |
| SigV4.ParseCredential | src/main.rs:131-138 | The credential parses exactly when it splits on `/` into five parts, and the parts join back into it. |
| SigV4.CredentialRoundTrip | src/main.rs:131-138 | A credential built from five components free of `/` and `,` parses back into exactly those components, the unchecked fifth one included. |
| SigV4.ParseDirectivesOf | src/main.rs:116-128 | An `Authorization` value with the `Credential`, `SignedHeaders` and `Signature` directives, free of `,`, parses back into the three values. |
| SigV4.StandardAuthorizationParses | src/main.rs:116-138 | A standard `Authorization` value over separator-free scope fields parses back into its scope, signed names and signature. |
| SigV4.ScopeDoublesTerminator | src/main.rs:169 | The credential scope splits on `/` into date, region, service, `aws4_request`, `aws4_request`. |
| SigV4.CanonicalHeadersFrame | src/main.rs:150-155 | The header block ignores every header that no signed name refers to after lower-casing. |
| SigV4.CanonicalHeadersAbsent | src/main.rs:150-155 | The header block is empty when no signed name, lower-cased, is present in the request. |
| SigV4.CanonicalHeadersTrimmed | src/main.rs:153 | Two header values that trim alike, with an unreadable value counting as empty, give the same header block. |
| SigV4.SignedHeadersReordered | src/main.rs:146-165 | Reordering the names in `SignedHeaders` keeps the header block, but changes the canonical request, since its signed-headers line is the value as sent. |
| SigV4.SignedHeadersLineInjective | src/main.rs:157-165 | The canonical request determines its signed-headers line. |
| SigV4.CanonicalRequestInjective | src/main.rs:157-165 | The canonical request determines its path and its query string when the other one is fixed. |
| SigV4.CanonicalRequestFrame | src/main.rs:101-165 | The canonical request ignores any header other than `x-amz-content-sha256` that no signed name refers to. |
| SigV4.HexHmac | src/main.rs:192-194 | The server's signature is lowercase hex, two digits per MAC byte. |
| SigV4.SignatureAgree | src/main.rs:167-194 | The signature depends on the request only through its canonical request and its `x-amz-date`. |
| SigV4.SignatureFrame | src/main.rs:101-194 | The signature ignores any header other than `x-amz-date` and `x-amz-content-sha256` that no signed name refers to. |
| SigV4.SignatureTrimmed | src/main.rs:150-194 | Two values of one header other than `x-amz-date` and `x-amz-content-sha256` that trim alike give the same signature; those two are used untrimmed. |
| SigV4.VerifyV4Frame | src/main.rs:93-200 | The SigV4 verdict ignores any header other than `x-amz-date` and `x-amz-content-sha256` that `SignedHeaders` does not name. |
| SigV4.VerifyV4Trimmed | src/main.rs:93-200 | The SigV4 verdict sees the value of a header other than `x-amz-date` and `x-amz-content-sha256` only up to surrounding whitespace; those two are used untrimmed. |
| SigV4.SignedRequestVerifies | src/main.rs:93-200 | A request signed with the configured keys, over scope fields and header names free of the parser's separators, verifies whatever the primitives are. |
| SigV4.SignatureBindsCanonicalRequest | src/main.rs:157-200 | With injective primitives, one `Authorization` value that verifies for two requests with the same `x-amz-date` fixes their canonical request. |
| SigV4.TamperedPathRejected | src/main.rs:157-200 | With injective primitives, a verified request no longer verifies once its path changes. |
| SigV4.TamperedQueryRejected | src/main.rs:157-200 | With injective primitives, a verified request no longer verifies once its query string changes. |
| SigV4.StandardAuthorizationOf | src/main.rs:116-138 | A standard `Authorization` value over separator-free scope fields, signed header names as a client sends them and a hex signature parses back into its parts. |
| SigV4.CanonicalHeadersGrow | src/main.rs:150-155 | When the maps differ only at `k` and `k` shows a shorter trimmed value (or none) in the first, the first header block is no longer, and strictly shorter when a signed name refers to `k`. |
| SigV4.CanonicalHeadersDiffer | src/main.rs:150-155 | When two header maps differ only at `k`, a signed name refers to `k`, and `k` shows a different trimmed value or is present in only one, the header blocks differ. |
| SigV4.HeaderBlockInjective | src/main.rs:157-165 | The canonical request determines its header block when the other lines are fixed. |
| SigV4.PayloadLineInjective | src/main.rs:157-165 | The canonical request determines its payload-hash line when the other lines are fixed. |
| SigV4.VerifyV4Agree | src/main.rs:101-200 | Two requests with the same canonical request and the same `x-amz-date` get the same SigV4 verdict. |
| SigV4.TamperedSignedHeaderRejected | src/main.rs:145-200 | With injective primitives, a verified request no longer verifies once a signed header other than `x-amz-date` and `x-amz-content-sha256` is added, dropped, or given a value that trims differently. |
| SigV4.TamperedPayloadHashRejected | src/main.rs:101-104 | With injective primitives and `x-amz-content-sha256` not among the signed names, a verified request no longer verifies once the payload hash it reads from that header changes. |
| SigV4.UnsignedPayloadDefault | src/main.rs:101-104 | When `x-amz-content-sha256` is not signed, leaving it out or making it unreadable gives the same verdict as sending `UNSIGNED-PAYLOAD`. |
| SigV4.StringToSignDateInjective | src/main.rs:170-173 | The string to sign determines its `x-amz-date` line, because the hex hash after the last line break holds no line break. |
| SigV4.TamperedDateRejected | src/main.rs:106-109 | With an injective MAC, a verified request no longer verifies once the `x-amz-date` value it reads changes (absent and unreadable read as empty), whether or not `SignedHeaders` names it. |
| SigV4.ComputeSignature | src/main.rs:175-194 | The server's signature is lowercase hex that decodes to the MAC, under the four-stage signing key, of the UTF-8 string to sign. |
| SigV4.StandardScopeRejected | src/main.rs:169-200 | With injective primitives, a signature over the standard four-part scope `date/region/service/aws4_request` is rejected. |
| ObjectStore.EffectiveMaxKeys | src/main.rs:289 | `max-keys` defaults to 1000 and is capped at 1000; a smaller value is kept. |
| ObjectStore.Cap | src/main.rs:322-332 | The loop stops after exactly `max-keys` entries, or after one entry when `max-keys` is 0, because the length test follows the push. |
| ObjectStore.Matches | src/main.rs:295-301 | An entry is listable exactly when it is a regular file whose name starts with the prefix. |
| ObjectStore.Selected | src/main.rs:294-334 | The selection is a directory-order prefix of the listable entries: all of them when they fit under the cap, otherwise exactly as many as the cap. |
| ObjectStore.Collect | src/main.rs:292-334 | The scanning loop collects, in directory order, the object records of the first listable entries up to the cap, or of all of them. |
| ObjectStore.ListObjects | src/main.rs:285-349 | The listing carries the S3 namespace, the bucket name, the prefix and marker as given, the effective `max-keys`, and is never truncated. Its contents are sorted by key and are a permutation of the collected records. |
| ObjectStore.ListedSound | src/main.rs:297-328 | Every listed object comes from a regular file under the prefix, and carries the `STANDARD` class and the ETag of `name:size`. At most the cap of them are listed. |
| ObjectStore.ListedComplete | src/main.rs:294-334 | When the listable entries fit under the cap, all of them are listed. |
| ObjectStore.MaxKeysZeroStillOne | src/main.rs:289-332 | `max-keys=0` still lists exactly one object when any is listable. |
| ObjectStore.ListingBounded | src/main.rs:289-332 | A listing holds at most max(1, min(`max-keys`, 1000)) objects, so never more than 1000. |
| ObjectStore.GetObject | src/main.rs:365-395 | `get_object` answers 200 exactly for a stored key whose read succeeds, with the contents, the ETag of the contents, their decimal length and `accept-ranges: bytes`. A missing key or a failing read gives 404 with no body. |
| ObjectStore.PutObject | src/main.rs:398-431 | A failing directory creation gives 500, an unreadable body 400, and a failing file creation 500, each leaving the store unchanged. Success (200) happens exactly when nothing fails; it stores the body and reports the ETag of the body. |
| ObjectStore.DeleteObject | src/main.rs:434-447 | `delete_object` always answers 204. A successful removal takes the key away; a failing one leaves the store as it was. Every other key is kept either way. |
| ObjectStore.HeadObject | src/main.rs:450-485 | `head_object` answers 200 exactly for a stored key, with no body, the decimal length, and the ETag of `key:length`; otherwise 404. |
| ObjectStore.PutThenGet | src/main.rs:398-431 | Reading back an uploaded object gives the uploaded bytes and the ETag the upload reported. |
| ObjectStore.PutKeepsOthers | src/main.rs:398-431 | An upload, failed or not, leaves `get` (with or without a read failure) and `head` of every other key unchanged. |
| ObjectStore.DeleteIdempotent | src/main.rs:434-447 | Deleting again after a successful delete changes nothing and answers 204 again, whether or not the second removal fails. |
| ObjectStore.DeleteThenAbsent | src/main.rs:434-485 | After a delete whose removal succeeded, `get` and `head` of that key answer 404. |
| ObjectStore.DeleteFailureKeeps | src/main.rs:434-447 | A delete whose removal fails still answers 204, and `get` and `head` of the key answer as before. |
| ObjectStore.GetHeadAgree | src/main.rs:365-485 | When the file can be read, `get` and `head` agree on presence and on the reported length. |
| ObjectStore.UnreadableSplitsGetHead | src/main.rs:365-485 | A stored file that `fs::read` cannot read gets 404 from `get`, while `head`, which reads only the metadata, answers 200. |
| ObjectStore.HeadMatchesListing | src/main.rs:314-320 | `head` reports the listing ETag for a regular file stored under its name with the listed size. |
| ObjectStore.HeadIgnoresContents | src/main.rs:471-478 | The `head` ETag does not depend on the contents: two objects of the same length under one key get the same response. |
| ObjectStore.GetETagDistinguishes | src/main.rs:382 | With an injective SHA-256, the `get` ETags of two different contents differ. |
| Http.HeaderText | src/main.rs:101-109 | A header reads as text exactly when it is present and readable, and then as its value. |
| Digest.ETag | src/main.rs:382 | An ETag is the quoted lowercase hex digest, and the digest can be read back from it. |
| Digest.ETagAgreement | src/main.rs:382 | Two ETags are equal exactly when the digests are equal. |
| Text.StripPrefix | src/main.rs:116-127 | `strip_prefix` succeeds exactly when the text starts with the prefix, and then the prefix followed by the rest rebuilds the text. |
| Text.SplitOnce | src/main.rs:226 | `split_once` fails exactly when the character is absent; otherwise the left side holds no occurrence of it and both sides with the character between rebuild the input. |
| Text.Split | src/main.rs:120 | `split` gives at least one piece, and no piece contains the separator. The round trips are `Text.SplitJoin` and `Text.JoinSplit`. |
| Text.SplitJoin | src/main.rs:120 | Splitting pieces joined by a separator gives back the pieces, when no piece holds the separator's first character. |
| Text.JoinSplit | src/main.rs:131 | Joining the pieces of a split with the same separator gives back the input. |
| Text.TrimStart | src/main.rs:153 | `trim_start` drops exactly the leading Unicode whitespace: what it drops is whitespace, and what it keeps is a suffix that does not start with whitespace. |
| Text.TrimEnd | src/main.rs:153 | `trim_end` drops exactly the trailing Unicode whitespace: what it drops is whitespace, and what it keeps is a prefix that does not end with whitespace. |
| Text.Trim | src/main.rs:153 | `trim` gives a text no longer than its input that neither starts nor ends with whitespace. What it drops is stated by `Text.TrimStart` and `Text.TrimEnd`, and `Text.TrimPadding` shows that padding is undone. |
| Text.AsciiLower | src/main.rs:150-151 | Lower-casing keeps the length, maps each `A`-`Z` to its lower-case letter and leaves every other character alone. |
| Text.TrimPadding | src/main.rs:153 | Whitespace added around a value does not change its trimmed form. |
| Text.Decimal | src/main.rs:384-387 | `to_string` of a length is a non-empty run of decimal digits, with a leading `0` only for zero. `Text.DecimalRoundTrip` reads it back. |
| Text.DecimalRoundTrip | src/main.rs:314-320 | The decimal rendering of a size reads back as that size. |
| Sorting.SortBy | src/main.rs:339 | Sorting the listing by key gives a permutation of the records in non-decreasing byte-wise key order. |
| Sorting.SortStrings | src/main.rs:146-148 | The sorted names are in byte-wise order and are a permutation of the input. |
| Sorting.SortedUnique | src/main.rs:146-148 | Two sorted permutations of the same names are equal, so `sort_unstable` has only one possible result. |
| Sorting.SortStringsOrderFree | src/main.rs:146-148 | The sorted names depend only on which names there are, not on their order. |
| Encoding.Hex | src/main.rs:167-168 | `hex::encode` gives two lowercase hex digits per byte. `Encoding.UnhexHex` decodes it back. |
| Encoding.Utf8 | src/main.rs:167-168 | `as_bytes` gives between one and four bytes per character. `Encoding.Utf8RoundTrip` decodes it back. |
| Encoding.UnhexHex | src/main.rs:167-168 | Lowercase hex decodes back to the bytes it encodes. |
| Encoding.HexInjective | src/main.rs:192-200 | Different MACs give different hex signatures. |
| Encoding.Utf8RoundTrip | src/main.rs:167-193 | The UTF-8 bytes of a string decode back to it. |
| Encoding.Utf8Injective | src/main.rs:167-193 | Different strings have different UTF-8 bytes. |

## Left out

- **HTTP and runtime wiring.** Routing, `auth_middleware`, `main`, the CORS layer, tracing output and the command-line arguments are framework wiring. `verify_auth` is modelled on the headers, method, path and query that the middleware hands it.
- **Real filesystem calls.** `read_dir`, `create_dir_all`, `File::create`, `write_all`, `remove_file` and `metadata` are replaced by the entry sequence and the key-to-contents map.
- **Directory listing errors.**
  - A failing `read_dir` is the empty sequence.
  - Enumeration stopping at an error is the sequence up to the error.
  - An entry whose metadata cannot be read counts as not a regular file.
- **File names.** `to_string_lossy` is not modelled: names are strings.
- **Partial writes.** A failing `write_all` after the file was created is not modelled. `PutFault` covers the failures before the file holds the body.
- **Keys that name directories or nested paths.** They are not modelled. The store holds only regular files directly under their key. Like the code, the model does no path-traversal check.
- **Aliasing keys.** The store treats distinct key strings as distinct files. `data_dir.join` makes `a`, `./a` and `b/../a` name one file (`src/main.rs` lines 369, 403, 438 and 454). So `ObjectStore.PutKeepsOthers` and the "every other key is kept" clause of `ObjectStore.DeleteObject` hold only for keys that do not alias.
- **XML and the other header formats.**
  - `serde_xml_rs` serialisation and its 500 path are not modelled; the listing result is the record before serialisation.
  - `LastModified`, chrono formatting and `mime_guess` content types are not modelled.
  - The `server` and `content-type` response headers are not modelled.
- **Header lookup details.**
  - `HeaderValue::to_str` byte rules: a header value is either a readable string or unreadable (`None`).
  - Repeated headers are not modelled.
  - `HeaderMap` name normalisation is modelled only as ASCII lower-casing of signed names. Other lookups use lower-case literals, and header names are assumed to be stored in lower case.
- **Query extraction.** A malformed `max-keys` that makes the query extractor reject the request before the handler runs is not modelled.
- **Integer widths.** `usize` and `u64` are unbounded naturals. No listing size or file length near 2^64 is modelled.
- **Sort stability.** `sort_by` and `sort_unstable` are modelled by one insertion sort. `Sorting.SortedUnique` shows the order of strings is unique. Objects with equal keys are not distinguished, since directory entries have distinct names.
- **Cryptography.** SHA-256 and HMAC-SHA256 are uninterpreted. Their collision resistance appears only as the injectivity hypotheses of the lemmas that need it.
- **SigV4.TamperedPayloadHashRejected:** only when `x-amz-content-sha256` is not signed. A signed payload hash moves the header block and the payload line of the canonical request together, and no lemma covers that case.
- **SigV4.TamperedSignedHeaderRejected:** excludes `x-amz-date` and `x-amz-content-sha256`. A change to `x-amz-date` is rejected by `SigV4.TamperedDateRejected`, signed or not. A change to a signed `x-amz-content-sha256` is the gap named in the previous line.
- **ObjectStore.HeadObject:** a failing `metadata` call on an existing file is not modelled; `head` of a stored key always answers 200.
- **SigV4.VerifyV4:** its own contract states only the necessary conditions for acceptance. The sufficient condition is `SigV4.AcceptsParsed`, and completeness for an honest client is `SigV4.SignedRequestVerifies`.

=== FILE: auth.dfy ===
/** `verify_auth`: four authentication schemes tried in a fixed order. The
    first scheme that applies decides the result; later ones are not looked at. */
module Auth {
  import opened Wrappers
  import opened Text
  import opened Encoding
  import opened Digest
  import opened Http
  import opened SigV4

  const AccessKeyHeader := "x-amz-access-key"
  const SecretKeyHeader := "x-amz-secret-key"
  const AuthorizationHeader := "authorization"
  const BearerPrefix := "Bearer "
  /** The SigV4 scheme is chosen on this prefix, without the trailing space
      that the directive parser then strips. */
  const SigV4Marker := "AWS4-HMAC-SHA256"
  const AccessKeyParam := "access_key"
  const SecretKeyParam := "secret_key"

  /** Scheme 1 applies: both key headers are present and readable. */
  predicate KeyHeaders(h: Headers) {
    HeaderText(h, AccessKeyHeader).Some? && HeaderText(h, SecretKeyHeader).Some?
  }

  /** The `Authorization` value with an optional `Bearer ` prefix removed. */
  function Unbearer(a: string): (r: string)
    ensures StartsWith(a, BearerPrefix) ==> a == BearerPrefix + r
    ensures !StartsWith(a, BearerPrefix) ==> r == a
  {
    StripPrefix(a, BearerPrefix).GetOr(a)
  }

  /** Scheme 2 applies: a readable `Authorization` holding a `:` once
      `Bearer ` is removed. */
  predicate SimpleApplies(h: Headers) {
    HeaderText(h, AuthorizationHeader).Some? && ':' in Unbearer(HeaderText(h, AuthorizationHeader).value)
  }

  /** Scheme 3 applies: otherwise a readable `Authorization` that starts with the algorithm name. */
  predicate SigV4Applies(h: Headers) {
    HeaderText(h, AuthorizationHeader).Some? && !SimpleApplies(h)
    && StartsWith(HeaderText(h, AuthorizationHeader).value, SigV4Marker)
  }

  /** The simple scheme splits at the first `:` and compares both sides, so
      the left side is the whole access key exactly when the access key has no `:`. */
  function SimpleVerdict(clean: string, creds: Credentials): (ok: bool)
    requires ':' in clean
    ensures ok <==> clean == creds.accessKey + ":" + creds.secretKey && ':' !in creds.accessKey
  {
    var (access, secret) := SplitOnce(clean, ':').value;
    assert ':' !in creds.accessKey && clean == creds.accessKey + ":" + creds.secretKey
           ==> SplitOnce(clean, ':') == Some((creds.accessKey, creds.secretKey)) by {
      if ':' !in creds.accessKey && clean == creds.accessKey + ":" + creds.secretKey {
        SplitOnceUnique(clean, ':', creds.accessKey, creds.secretKey);
      }
    }
    access == creds.accessKey && secret == creds.secretKey
  }

  /** `param.split_once('=') == Some((key, value))`. */
  predicate IsParam(p: string, key: string, value: string) {
    SplitOnce(p, '=') == Some((key, value))
  }

  /** For a key without `=`, a piece names `key` with `value` exactly when it
      is `key=value`; the value may itself hold `=`. */
  lemma ParamShape(p: string, key: string, value: string)
    requires '=' !in key
    ensures IsParam(p, key, value) <==> p == key + "=" + value
  {
    if p == key + "=" + value {
      SplitOnceUnique(p, '=', key, value);
    }
  }

  /** The query scheme's verdict: a non-empty query whose `&`-pieces include
      `access_key=<access>` and `secret_key=<secret>`, in any order. */
  predicate QueryGrants(query: string, creds: Credentials) {
    query != ""
    && AccessKeyParam + "=" + creds.accessKey in Split(query, "&")
    && SecretKeyParam + "=" + creds.secretKey in Split(query, "&")
  }

  /** The nested loops of the query scheme: for each piece naming the access
      key, scan all pieces again for the secret key. */
  method QueryAuth(query: string, creds: Credentials) returns (ok: bool)
    ensures ok <==> QueryGrants(query, creds)
  {
    if query == "" {
      return false;
    }
    var params := Split(query, "&");
    var accessPiece := AccessKeyParam + "=" + creds.accessKey;
    var secretPiece := SecretKeyParam + "=" + creds.secretKey;
    var i := 0;
    while i < |params|
      invariant 0 <= i <= |params|
      invariant accessPiece in params[..i] ==> secretPiece !in params
    {
      ParamShape(params[i], AccessKeyParam, creds.accessKey);
      if IsParam(params[i], AccessKeyParam, creds.accessKey) {
        var j := 0;
        while j < |params|
          invariant 0 <= j <= |params|
          invariant secretPiece !in params[..j]
        {
          ParamShape(params[j], SecretKeyParam, creds.secretKey);
          if IsParam(params[j], SecretKeyParam, creds.secretKey) {
            assert params[j] in params;
            return true;
          }
          assert params[..j + 1] == params[..j] + [params[j]];
          j := j + 1;
        }
        assert params[..j] == params;
      }
      assert params[..i + 1] == params[..i] + [params[i]];
      i := i + 1;
    }
    assert params[..i] == params;
    return false;
  }

  /** `verify_auth`: custom key headers, then `access:secret` in
      `Authorization`, then a SigV4 `Authorization`, then query parameters.
      The first, third and fourth `ensures` fix the order in which the
      schemes are tried; the properties of each scheme are the lemmas below. */
  function VerifyAuth(c: Crypto, creds: Credentials, req: Request): (ok: bool)
    ensures KeyHeaders(req.headers) ==>
              (ok <==> req.headers[AccessKeyHeader] == Some(creds.accessKey)
                       && req.headers[SecretKeyHeader] == Some(creds.secretKey))
    ensures !KeyHeaders(req.headers) && SimpleApplies(req.headers) ==>
              (ok <==> Unbearer(req.headers[AuthorizationHeader].value) == creds.accessKey + ":" + creds.secretKey
                       && ':' !in creds.accessKey)
    ensures !KeyHeaders(req.headers) && SigV4Applies(req.headers) ==>
              ok == VerifyV4(c, creds, req.headers[AuthorizationHeader].value, req)
    ensures !KeyHeaders(req.headers) && !SimpleApplies(req.headers) && !SigV4Applies(req.headers) ==>
              ok == QueryGrants(req.query, creds)
  {
    var h := req.headers;
    if KeyHeaders(h) then
      HeaderText(h, AccessKeyHeader).value == creds.accessKey
      && HeaderText(h, SecretKeyHeader).value == creds.secretKey
    else if SimpleApplies(h) then
      SimpleVerdict(Unbearer(HeaderText(h, AuthorizationHeader).value), creds)
    else if SigV4Applies(h) then
      VerifyV4(c, creds, HeaderText(h, AuthorizationHeader).value, req)
    else
      QueryGrants(req.query, creds)
  }

  /** Once both key headers are readable, neither `Authorization` nor the query is consulted. */
  lemma KeyHeadersIgnoreRest(c: Crypto, creds: Credentials, req: Request, auth: Option<string>, query: string)
    requires KeyHeaders(req.headers)
    ensures VerifyAuth(c, creds, req)
         == VerifyAuth(c, creds, req.(headers := req.headers[AuthorizationHeader := auth], query := query))
  {
    var req' := req.(headers := req.headers[AuthorizationHeader := auth], query := query);
    assert HeaderText(req'.headers, AccessKeyHeader) == HeaderText(req.headers, AccessKeyHeader);
    assert HeaderText(req'.headers, SecretKeyHeader) == HeaderText(req.headers, SecretKeyHeader);
  }

  /** The simple scheme ignores the query string, so query parameters cannot
      rescue a rejected `access:secret` header. */
  lemma SimpleSchemeIgnoresQuery(c: Crypto, creds: Credentials, req: Request, query: string)
    requires !KeyHeaders(req.headers) && SimpleApplies(req.headers)
    ensures VerifyAuth(c, creds, req) == VerifyAuth(c, creds, req.(query := query))
  {
  }

  /** A SigV4 `Authorization` ignores the query parameters scheme: the
      verdict is the signature check alone. */
  lemma SigV4IgnoresQueryScheme(c: Crypto, creds: Credentials, req: Request)
    requires !KeyHeaders(req.headers) && SigV4Applies(req.headers)
    requires QueryGrants(req.query, creds)
    ensures VerifyAuth(c, creds, req) == VerifyV4(c, creds, req.headers[AuthorizationHeader].value, req)
  {
  }

  /** Only the first `:` splits: `k:a:b` authenticates access key `k` with secret `a:b`. */
  lemma SimpleSchemeFirstColon(c: Crypto, req: Request)
    requires req.headers == map[AuthorizationHeader := Some("k:a:b")]
    ensures VerifyAuth(c, Credentials("k", "a:b", "b"), req)
    ensures !VerifyAuth(c, Credentials("k:a", "b", "b"), req)
  {
    assert !StartsWith("k:a:b", BearerPrefix);
    assert "k:a:b" == "k" + ":" + "a:b";
    assert "k:a:b"[1] == ':';
  }

  /** `Bearer access:secret` is accepted like `access:secret`, also with empty sides. */
  lemma BearerAccepted(c: Crypto, creds: Credentials, req: Request)
    requires ':' !in creds.accessKey
    requires req.headers == map[AuthorizationHeader := Some(BearerPrefix + creds.accessKey + ":" + creds.secretKey)]
    ensures VerifyAuth(c, creds, req)
  {
    var a := BearerPrefix + creds.accessKey + ":" + creds.secretKey;
    assert a[..|BearerPrefix|] == BearerPrefix;
    assert a == BearerPrefix + (creds.accessKey + ":" + creds.secretKey);
    assert a[|BearerPrefix| + |creds.accessKey|] == ':';
  }

  /** An `Authorization` that names the algorithm but lacks the space after
      it parses to no directives and is rejected. */
  lemma MarkerWithoutSpaceRejected(c: Crypto, creds: Credentials, req: Request)
    requires !KeyHeaders(req.headers)
    requires HeaderText(req.headers, AuthorizationHeader).Some?
    requires StartsWith(req.headers[AuthorizationHeader].value, SigV4Marker)
    requires !StartsWith(req.headers[AuthorizationHeader].value, AuthPrefix)
    requires ':' !in req.headers[AuthorizationHeader].value
    ensures !VerifyAuth(c, creds, req)
  {
    var a := req.headers[AuthorizationHeader].value;
    assert a[0] == 'A';
    assert !StartsWith(a, BearerPrefix);
  }

  /** With no key headers, no `Authorization` and no query, nothing authenticates. */
  lemma NoSchemeRejects(c: Crypto, creds: Credentials, req: Request)
    requires AccessKeyHeader !in req.headers && AuthorizationHeader !in req.headers
    requires req.query == ""
    ensures !VerifyAuth(c, creds, req)
  {
  }

  /** Query parameters authenticate in either order. */
  lemma QueryEitherOrder(creds: Credentials, a: string, b: string)
    requires '&' !in a && '&' !in b
    ensures QueryGrants(a + "&" + b, creds) == QueryGrants(b + "&" + a, creds)
  {
    SplitJoin([a, b], "&");
    SplitJoin([b, a], "&");
  }

  /** A credential scope over fields without `:` formats without `:`. */
  lemma ScopeNoColon(scope: CredentialScope)
    requires ':' !in scope.accessKey && ':' !in scope.date && ':' !in scope.region && ':' !in scope.service
    requires ':' !in scope.terminator
    ensures ':' !in Join(scope.Components(), "/")
  {
    JoinAvoids(scope.Components(), "/", ':');
  }

  /** An `Authorization` value starts with the algorithm marker, so not with `Bearer `. */
  lemma AuthorizationValueMarker(credential: string, signed: string, sig: string)
    ensures StartsWith(AuthorizationValue(credential, signed, sig), SigV4Marker)
    ensures !StartsWith(AuthorizationValue(credential, signed, sig), BearerPrefix)
  {
    var auth := AuthorizationValue(credential, signed, sig);
    assert auth[..|AuthPrefix|] == AuthPrefix;
    assert auth[..|SigV4Marker|] == AuthPrefix[..|SigV4Marker|];
    assert auth[0] == 'A';
  }

  /** What the dispatcher sees of a standard SigV4 `Authorization` whose
      fields hold no `:`: the simple scheme passes it by and the SigV4
      scheme takes it. */
  lemma AuthorizationValueDispatch(credential: string, signed: string, sig: string)
    requires ':' !in credential && ':' !in signed
    requires forall i :: 0 <= i < |sig| ==> IsHexDigit(sig[i])
    ensures ':' !in AuthorizationValue(credential, signed, sig)
    ensures StartsWith(AuthorizationValue(credential, signed, sig), SigV4Marker)
    ensures !StartsWith(AuthorizationValue(credential, signed, sig), BearerPrefix)
  {
    HexAvoids(sig, ':');
    JoinAvoids([CredentialKey + credential, SignedHeadersKey + signed, SignatureKey + sig], DirectiveSeparator, ':');
    AuthorizationValueMarker(credential, signed, sig);
  }

  /** Names joined with `;` split back into names that all avoid `k`. */
  lemma JoinedNamesAvoid(names: seq<string>, k: string)
    requires |names| >= 1
    requires forall i :: 0 <= i < |names| ==> HeaderNameField(names[i]) && AsciiLower(names[i]) != k
    ensures forall n :: n in Split(Join(names, ";"), ";") ==> AsciiLower(n) != k
  {
    SplitJoin(names, ";");
  }

  /** An `Authorization` value that passes the signature check is let in
      once it is added to a request without key headers, provided the
      dispatcher routes it to SigV4 and it does not sign itself. */
  lemma VerifiedAuthorizationAccepted(c: Crypto, creds: Credentials, auth: string, req: Request)
    requires VerifyV4(c, creds, auth, req)
    requires ':' !in auth && StartsWith(auth, SigV4Marker) && !StartsWith(auth, BearerPrefix)
    requires forall n :: n in Split(ParseDirectives(auth).signedHeaders, ";") ==> AsciiLower(n) != AuthorizationHeader
    requires AccessKeyHeader !in req.headers
    ensures VerifyAuth(c, creds, req.(headers := req.headers[AuthorizationHeader := Some(auth)]))
  {
    var req' := req.(headers := req.headers[AuthorizationHeader := Some(auth)]);
    assert !KeyHeaders(req'.headers);
    assert HeaderText(req'.headers, AuthorizationHeader) == Some(auth);
    assert Unbearer(auth) == auth;
    assert SigV4Applies(req'.headers);
    VerifyV4Frame(c, creds, auth, req, AuthorizationHeader, Some(auth));
  }

  /** A standard SigV4 `Authorization` over fields without `:` has no `:`,
      starts with the algorithm marker and not with `Bearer `. */
  lemma StandardAuthorizationDispatch(scope: CredentialScope, names: seq<string>, sig: string)
    requires ':' !in scope.accessKey && ':' !in scope.date && ':' !in scope.region && ':' !in scope.service
    requires ':' !in scope.terminator
    requires forall i :: 0 <= i < |names| ==> ':' !in names[i]
    requires forall i :: 0 <= i < |sig| ==> IsHexDigit(sig[i])
    ensures var auth := AuthorizationValue(Join(scope.Components(), "/"), Join(names, ";"), sig);
            ':' !in auth && StartsWith(auth, SigV4Marker) && !StartsWith(auth, BearerPrefix)
  {
    ScopeNoColon(scope);
    JoinAvoids(names, ";", ':');
    AuthorizationValueDispatch(Join(scope.Components(), "/"), Join(names, ";"), sig);
  }

  /** A client that signs `req` with the configured keys and sends the
      result in `Authorization` is let in. */
  lemma SignedRequestAccepted(c: Crypto, creds: Credentials, date: string, region: string, service: string,
                              names: seq<string>, req: Request)
    requires ScopeField(creds.accessKey) && ScopeField(date) && ScopeField(region) && ScopeField(service)
    requires ':' !in creds.accessKey && ':' !in date && ':' !in region && ':' !in service
    requires |names| >= 1
    requires forall i :: 0 <= i < |names| ==> HeaderNameField(names[i]) && ':' !in names[i]
    requires forall i :: 0 <= i < |names| ==> AsciiLower(names[i]) != AuthorizationHeader
    requires AccessKeyHeader !in req.headers
    ensures VerifyAuth(c, creds, req.(headers := req.headers[AuthorizationHeader :=
              Some(AuthorizationFor(c, creds.accessKey, creds.secretKey, date, region, service, names, req))]))
  {
    var scope := CredentialScope(creds.accessKey, date, region, service, Terminator);
    var sig := ComputeSignature(c, creds.secretKey, req, scope, Join(names, ";"));
    SignedRequestVerifies(c, creds, date, region, service, names, req);
    TerminatorIsField();
    var signed := Join(names, ";");
    StandardAuthorizationDispatch(scope, names, sig);
    StandardAuthorizationOf(scope, names, sig);
    JoinedNamesAvoid(names, AuthorizationHeader);
    VerifiedAuthorizationAccepted(c, creds, AuthorizationValue(Join(scope.Components(), "/"), signed, sig), req);
  }

  /** Whitespace around the value of a header other than `x-amz-date` and
      `x-amz-content-sha256`, and other than the headers that choose the
      scheme, never changes the verdict: only trimmed values are signed. */
  lemma PaddingNotSigned(c: Crypto, creds: Credentials, req: Request, k: string, pre: string, v: string,
                         post: string)
    requires k !in {"x-amz-date", "x-amz-content-sha256", AccessKeyHeader, SecretKeyHeader, AuthorizationHeader}
    requires forall i :: 0 <= i < |pre| ==> IsWhitespace(pre[i])
    requires forall i :: 0 <= i < |post| ==> IsWhitespace(post[i])
    ensures VerifyAuth(c, creds, req.(headers := req.headers[k := Some(pre + v + post)]))
         == VerifyAuth(c, creds, req.(headers := req.headers[k := Some(v)]))
  {
    TrimPadding(pre, v, post);
    var r1 := req.(headers := req.headers[k := Some(pre + v + post)]);
    var r2 := req.(headers := req.headers[k := Some(v)]);
    assert HeaderText(r1.headers, AccessKeyHeader) == HeaderText(r2.headers, AccessKeyHeader);
    assert HeaderText(r1.headers, SecretKeyHeader) == HeaderText(r2.headers, SecretKeyHeader);
    assert HeaderText(r1.headers, AuthorizationHeader) == HeaderText(r2.headers, AuthorizationHeader);
    if HeaderText(r1.headers, AuthorizationHeader).Some? {
      VerifyV4Trimmed(c, creds, HeaderText(r1.headers, AuthorizationHeader).value, req, k,
                      Some(pre + v + post), Some(v));
    }
  }
}

=== FILE: digest.dfy ===
/** SHA-256 (FIPS 180-4) and HMAC-SHA256 (RFC 2104) as uninterpreted
    functions supplied by the caller, and the hex and ETag renderings the
    gateway builds from them. */
module Digest {
  import opened Wrappers
  import opened Encoding

  /** The two primitives: `sha256(data)` and `hmac(key, message)`. Nothing is
      assumed about them unless a lemma asks for it. */
  datatype Crypto = Crypto(sha256: Bytes -> Bytes, hmac: (Bytes, Bytes) -> Bytes)

  /** `hex::encode(Sha256::digest(text.as_bytes()))`. */
  function HexSha256(c: Crypto, text: string): string {
    Hex(c.sha256(Utf8(text)))
  }

  /** An ETag: the hex SHA-256 of `data` inside double quotes. */
  function ETag(c: Crypto, data: Bytes): (e: string)
    ensures |e| == 2 * |c.sha256(data)| + 2
    ensures e[0] == '"' && e[|e| - 1] == '"'
    ensures ETagDigest(e) == Some(c.sha256(data))
  {
    var e := "\"" + Hex(c.sha256(data)) + "\"";
    assert e[1..|e| - 1] == Hex(c.sha256(data));
    UnhexHex(c.sha256(data));
    e
  }

  /** The digest an ETag carries: the partner of `ETag`. */
  function ETagDigest(e: string): Option<Bytes> {
    if |e| >= 2 && e[0] == '"' && e[|e| - 1] == '"' then Unhex(e[1..|e| - 1]) else None
  }

  /** Two ETags agree exactly when the digests they quote agree. */
  lemma ETagAgreement(c: Crypto, a: Bytes, b: Bytes)
    ensures ETag(c, a) == ETag(c, b) <==> c.sha256(a) == c.sha256(b)
  {
    if ETag(c, a) == ETag(c, b) {
      assert ETagDigest(ETag(c, a)) == ETagDigest(ETag(c, b));
    }
  }

  /** Collision resistance, stated as injectivity: only used as a hypothesis. */
  ghost predicate ShaInjective(c: Crypto) {
    forall a, b :: c.sha256(a) == c.sha256(b) ==> a == b
  }

  /** For a fixed key, distinct messages give distinct MACs: only a hypothesis. */
  ghost predicate HmacInjective(c: Crypto) {
    forall k, a, b :: c.hmac(k, a) == c.hmac(k, b) ==> a == b
  }
}

=== FILE: encoding.dfy ===
/** Byte-level encodings the gateway relies on: UTF-8 (`str::as_bytes`,
    the text handed to SHA-256 and HMAC) and lowercase base16 (`hex::encode`,
    section 8 of RFC 4648 with the lowercase alphabet). */
module Encoding {
  import opened Wrappers

  newtype byte = b: int | 0 <= b < 256
  type Bytes = seq<byte>

  predicate IsHexDigit(c: char) {
    ('0' <= c <= '9') || ('a' <= c <= 'f')
  }

  /** The lowercase digit for a nibble. */
  function HexDigit(k: nat): (c: char)
    requires k < 16
    ensures IsHexDigit(c)
  {
    if k < 10 then ('0' as int + k) as char else ('a' as int + k - 10) as char
  }

  /** Value of a lowercase hex digit. */
  function HexValue(c: char): (r: Option<nat>)
    ensures r.Some? <==> IsHexDigit(c)
    ensures r.Some? ==> r.value < 16 && HexDigit(r.value) == c
  {
    if '0' <= c <= '9' then Some(c as int - '0' as int)
    else if 'a' <= c <= 'f' then Some(c as int - 'a' as int + 10)
    else None
  }

  /** `hex::encode`: two lowercase digits per byte, high nibble first. */
  function Hex(bs: Bytes): (s: string)
    ensures |s| == 2 * |bs|
    ensures forall i :: 0 <= i < |s| ==> IsHexDigit(s[i])
  {
    if |bs| == 0 then ""
    else [HexDigit(bs[0] as int / 16), HexDigit(bs[0] as int % 16)] + Hex(bs[1..])
  }

  /** Decoder for `Hex`'s output: pairs of lowercase digits back to bytes. */
  function Unhex(s: string): Option<Bytes>
    decreases |s|
  {
    if |s| == 0 then Some([])
    else if |s| == 1 then None
    else
      var hi, lo, rest := HexValue(s[0]), HexValue(s[1]), Unhex(s[2..]);
      if hi.Some? && lo.Some? && rest.Some? then Some([(hi.value * 16 + lo.value) as byte] + rest.value)
      else None
  }

  lemma {:induction false} UnhexHex(bs: Bytes)
    ensures Unhex(Hex(bs)) == Some(bs)
  {
    if |bs| > 0 {
      var hi, lo := bs[0] as int / 16, bs[0] as int % 16;
      var tail := Hex(bs[1..]);
      var s := [HexDigit(hi), HexDigit(lo)] + tail;
      assert Hex(bs) == s;
      assert s[2..] == tail;
      UnhexHex(bs[1..]);
      HexValueOfDigit(hi);
      HexValueOfDigit(lo);
      assert (hi * 16 + lo) as byte == bs[0];
      assert bs == [bs[0]] + bs[1..];
    }
  }

  lemma HexValueOfDigit(k: nat)
    requires k < 16
    ensures HexValue(HexDigit(k)) == Some(k)
  {
  }

  /** Distinct byte strings have distinct hex renderings. */
  lemma HexInjective(a: Bytes, b: Bytes)
    requires Hex(a) == Hex(b)
    ensures a == b
  {
    UnhexHex(a);
    UnhexHex(b);
  }

  /** A Unicode scalar value: what a Dafny `char` (and a Rust `char`) holds. */
  predicate IsScalar(n: int) {
    (0 <= n < 0xD800) || (0xE000 <= n < 0x110000)
  }

  /** UTF-8 encoding of one scalar value (section 3 of RFC 3629). */
  function EncodeChar(c: char): (bs: Bytes)
    ensures 1 <= |bs| <= 4
  {
    var n := c as int;
    if n < 0x80 then [n as byte]
    else if n < 0x800 then
      [(0xC0 + n / 64) as byte, (0x80 + n % 64) as byte]
    else if n < 0x10000 then
      [(0xE0 + n / 64 / 64) as byte, (0x80 + n / 64 % 64) as byte, (0x80 + n % 64) as byte]
    else
      [(0xF0 + n / 64 / 64 / 64) as byte, (0x80 + n / 64 / 64 % 64) as byte,
       (0x80 + n / 64 % 64) as byte, (0x80 + n % 64) as byte]
  }

  /** `str::as_bytes`: the UTF-8 encoding of a whole string. */
  function Utf8(s: string): (bs: Bytes)
    ensures |s| <= |bs| <= 4 * |s|
  {
    if |s| == 0 then [] else EncodeChar(s[0]) + Utf8(s[1..])
  }

  predicate IsContinuation(b: byte) {
    0x80 <= b < 0xC0
  }

  /** Decodes the scalar value at the head of `bs`, with its encoded length. */
  function DecodeChar(bs: Bytes): (r: Option<(char, nat)>)
    ensures r.Some? ==> 1 <= r.value.1 <= |bs|
  {
    if |bs| == 0 then None
    else
      var b0 := bs[0] as int;
      var (cp, len) :=
        if b0 < 0x80 then (b0, 1)
        else if 0xC0 <= b0 < 0xE0 && |bs| >= 2 && IsContinuation(bs[1]) then
          ((b0 - 0xC0) * 64 + (bs[1] as int - 0x80), 2)
        else if 0xE0 <= b0 < 0xF0 && |bs| >= 3 && IsContinuation(bs[1]) && IsContinuation(bs[2]) then
          (((b0 - 0xE0) * 64 + (bs[1] as int - 0x80)) * 64 + (bs[2] as int - 0x80), 3)
        else if 0xF0 <= b0 < 0xF8 && |bs| >= 4 && IsContinuation(bs[1]) && IsContinuation(bs[2])
                && IsContinuation(bs[3]) then
          ((((b0 - 0xF0) * 64 + (bs[1] as int - 0x80)) * 64 + (bs[2] as int - 0x80)) * 64
            + (bs[3] as int - 0x80), 4)
        else (-1, 0);
      if len > 0 && IsScalar(cp) then Some((cp as char, len)) else None
  }

  /** UTF-8 decoder; the partner of `Utf8`. */
  function Utf8Decode(bs: Bytes): Option<string>
    decreases |bs|
  {
    if |bs| == 0 then Some("")
    else
      match DecodeChar(bs)
      case None => None
      case Some((c, len)) =>
        match Utf8Decode(bs[len..])
        case None => None
        case Some(rest) => Some([c] + rest)
  }

  lemma DecodeEncodeChar(c: char, rest: Bytes)
    ensures DecodeChar(EncodeChar(c) + rest) == Some((c, |EncodeChar(c)|))
  {
    var n := c as int;
    var q1, r1 := n / 64, n % 64;
    var q2, r2 := q1 / 64, q1 % 64;
    var q3, r3 := q2 / 64, q2 % 64;
    assert n == q1 * 64 + r1 && q1 == q2 * 64 + r2 && q2 == q3 * 64 + r3;
  }

  lemma {:induction false} Utf8RoundTrip(s: string)
    ensures Utf8Decode(Utf8(s)) == Some(s)
  {
    if |s| > 0 {
      var e := EncodeChar(s[0]);
      var rest := Utf8(s[1..]);
      DecodeEncodeChar(s[0], rest);
      assert (e + rest)[|e|..] == rest;
      Utf8RoundTrip(s[1..]);
      assert s == [s[0]] + s[1..];
    }
  }

  /** Distinct strings have distinct UTF-8 encodings. */
  lemma Utf8Injective(a: string, b: string)
    requires Utf8(a) == Utf8(b)
    ensures a == b
  {
    Utf8RoundTrip(a);
    Utf8RoundTrip(b);
  }
}

=== FILE: http.dfy ===
/** What the authentication code sees of a request, and the configured
    credentials it is checked against. */
module Http {
  import opened Wrappers

  /** Header name (already lower-case) to its first value. `None` is a value
      that is present but fails `HeaderValue::to_str` (bytes outside visible
      ASCII). */
  type Headers = map<string, Option<string>>

  datatype Request = Request(httpMethod: string, path: string, query: string, headers: Headers)

  /** The process-wide configuration: one access key, one secret key, one bucket. */
  datatype Credentials = Credentials(accessKey: string, secretKey: string, bucketName: string)

  /** `headers.get(name).and_then(|v| v.to_str().ok())`. */
  function HeaderText(h: Headers, name: string): (r: Option<string>)
    ensures r.Some? <==> name in h && h[name].Some?
    ensures r.Some? ==> h[name] == r
  {
    if name in h then h[name] else None
  }
}

=== FILE: sigv4.dfy ===
/** AWS Signature Version 4 verification as `verify_aws_v4_signature` does
    it: parse the directives of the `Authorization` value, split the
    credential, build the canonical request and the string to sign, derive
    the signing key through four HMAC stages and compare hex signatures. */
module SigV4 {
  import opened Wrappers
  import opened Text
  import opened Encoding
  import opened Sorting
  import opened Digest
  import opened Http

  const Algorithm: string := "AWS4-HMAC-SHA256"
  const AuthPrefix: string := "AWS4-HMAC-SHA256 "
  const DirectiveSeparator: string := ", "
  const CredentialKey: string := "Credential="
  const SignedHeadersKey: string := "SignedHeaders="
  const SignatureKey: string := "Signature="
  const Terminator: string := "aws4_request"
  const UnsignedPayload: string := "UNSIGNED-PAYLOAD"

  /** `x-amz-content-sha256`, or `UNSIGNED-PAYLOAD` when absent or unreadable. */
  function PayloadHash(h: Headers): string {
    HeaderText(h, "x-amz-content-sha256").GetOr(UnsignedPayload)
  }

  /** `x-amz-date`, or the empty string when absent or unreadable. */
  function AmzDate(h: Headers): string {
    HeaderText(h, "x-amz-date").GetOr("")
  }

  /** The three values the directive loop keeps; each starts empty. */
  datatype Directives = Directives(credential: string, signedHeaders: string, signature: string)

  /** One turn of the directive loop: the first of the three prefixes the
      part carries decides which value it overwrites. */
  function ScanPart(d: Directives, part: string): Directives {
    match StripPrefix(part, CredentialKey)
    case Some(v) => d.(credential := v)
    case None =>
      match StripPrefix(part, SignedHeadersKey)
      case Some(v) => d.(signedHeaders := v)
      case None =>
        match StripPrefix(part, SignatureKey)
        case Some(v) => d.(signature := v)
        case None => d
  }

  /** The loop's state after the parts it has seen, starting from `d`. */
  function ScanParts(parts: seq<string>, d: Directives): Directives {
    if |parts| == 0 then d else ScanPart(ScanParts(parts[..|parts| - 1], d), parts[|parts| - 1])
  }

  /** The value after `key` in the last part that starts with `key`. */
  function LastValue(parts: seq<string>, key: string): (r: Option<string>)
    ensures r.Some? <==> exists i :: 0 <= i < |parts| && StartsWith(parts[i], key)
  {
    if |parts| == 0 then None
    else
      match StripPrefix(parts[|parts| - 1], key)
      case Some(v) => Some(v)
      case None =>
        var r := LastValue(parts[..|parts| - 1], key);
        assert forall i :: 0 <= i < |parts| - 1 ==> parts[..|parts| - 1][i] == parts[i];
        r
  }

  /** The directives of an `Authorization` value: without the exact prefix
      `AWS4-HMAC-SHA256 ` there are none. */
  function DirectiveParts(auth: string): seq<string> {
    Split(StripPrefix(auth, AuthPrefix).GetOr(""), DirectiveSeparator)
  }

  function ParseDirectives(auth: string): Directives {
    ScanParts(DirectiveParts(auth), Directives("", "", ""))
  }

  /** Each directive the loop ends with is the one in the last part naming it;
      a directive never named stays at its initial value. */
  lemma {:induction false} ScanPartsTakesLast(parts: seq<string>, d: Directives)
    ensures ScanParts(parts, d).credential == LastValue(parts, CredentialKey).GetOr(d.credential)
    ensures ScanParts(parts, d).signedHeaders == LastValue(parts, SignedHeadersKey).GetOr(d.signedHeaders)
    ensures ScanParts(parts, d).signature == LastValue(parts, SignatureKey).GetOr(d.signature)
  {
    if |parts| > 0 {
      var p := parts[|parts| - 1];
      ScanPartsTakesLast(parts[..|parts| - 1], d);
      KeysExclusive(p);
    }
  }

  /** No part can carry two of the three directive prefixes. */
  lemma KeysExclusive(p: string)
    ensures !(StartsWith(p, CredentialKey) && StartsWith(p, SignedHeadersKey))
    ensures !(StartsWith(p, CredentialKey) && StartsWith(p, SignatureKey))
    ensures !(StartsWith(p, SignedHeadersKey) && StartsWith(p, SignatureKey))
  {
    if StartsWith(p, SignedHeadersKey) {
      assert p[4] == 'e';
    }
    if StartsWith(p, CredentialKey) {
      assert p[0] == 'C';
    }
  }

  /** The five `/`-separated components of the `Credential` directive. */
  datatype CredentialScope = CredentialScope(accessKey: string, date: string, region: string, service: string,
                                             terminator: string)
  {
    function Components(): seq<string> {
      [accessKey, date, region, service, terminator]
    }
  }

  /** `credential.split('/')` must give exactly five parts; the fifth is
      kept but never checked. */
  function ParseCredential(credential: string): (r: Option<CredentialScope>)
    ensures r.Some? <==> |Split(credential, "/")| == 5
    ensures r.Some? ==> Join(r.value.Components(), "/") == credential
  {
    var ps := Split(credential, "/");
    if |ps| != 5 then None
    else
      JoinSplit(credential, "/");
      var scope := CredentialScope(ps[0], ps[1], ps[2], ps[3], ps[4]);
      assert scope.Components() == ps;
      Some(scope)
  }

  /** The credential scope of the string to sign, with the terminator
      written twice as the code formats it. */
  function ScopeString(s: CredentialScope): string {
    s.date + "/" + s.region + "/" + s.service + "/" + Terminator + "/" + Terminator
  }

  /** The canonical header line for one signed name: looked up ASCII
      case-insensitively, written with the name as signed and the value
      trimmed (an unreadable value counts as empty); absent names add nothing. */
  function HeaderLine(name: string, h: Headers): string {
    var k := AsciiLower(name);
    if k in h then name + ":" + Trim(h[k].GetOr("")) + "\n" else ""
  }

  function CanonicalHeaders(names: seq<string>, h: Headers): string {
    if |names| == 0 then "" else HeaderLine(names[0], h) + CanonicalHeaders(names[1..], h)
  }

  /** The header block ignores every header no signed name refers to. */
  lemma {:induction false} CanonicalHeadersFrame(names: seq<string>, h: Headers, k: string, v: Option<string>)
    requires forall i :: 0 <= i < |names| ==> AsciiLower(names[i]) != k
    ensures CanonicalHeaders(names, h[k := v]) == CanonicalHeaders(names, h)
  {
    if |names| > 0 {
      CanonicalHeadersFrame(names[1..], h, k, v);
    }
  }

  /** The block is empty when no signed name is present in the request. */
  lemma {:induction false} CanonicalHeadersAbsent(names: seq<string>, h: Headers)
    requires forall i :: 0 <= i < |names| ==> AsciiLower(names[i]) !in h
    ensures CanonicalHeaders(names, h) == ""
  {
    if |names| > 0 {
      CanonicalHeadersAbsent(names[1..], h);
    }
  }

  function CanonicalRequest(httpMethod: string, path: string, query: string, headerBlock: string,
                            signedHeaders: string, payload: string): string {
    httpMethod + "\n" + path + "\n" + query + "\n" + headerBlock + "\n" + signedHeaders + "\n" + payload
  }

  /** The canonical request of `req` for a `SignedHeaders` value: header lines
      follow the sorted names, the signed-headers line is the value as sent. */
  function CanonicalRequestFor(req: Request, signedHeaders: string): string {
    var names := SortStrings(Split(signedHeaders, ";"));
    CanonicalRequest(req.httpMethod, req.path, req.query, CanonicalHeaders(names, req.headers),
                     signedHeaders, PayloadHash(req.headers))
  }

  /** Reordering the names of `SignedHeaders` keeps the header block but,
      since the signed-headers line is the value as sent, not the canonical
      request. */
  lemma SignedHeadersReordered(req: Request, sh1: string, sh2: string)
    requires multiset(Split(sh1, ";")) == multiset(Split(sh2, ";"))
    requires sh1 != sh2
    ensures CanonicalHeaders(SortStrings(Split(sh1, ";")), req.headers)
         == CanonicalHeaders(SortStrings(Split(sh2, ";")), req.headers)
    ensures CanonicalRequestFor(req, sh1) != CanonicalRequestFor(req, sh2)
  {
    SortStringsOrderFree(Split(sh1, ";"), Split(sh2, ";"));
    var block := CanonicalHeaders(SortStrings(Split(sh1, ";")), req.headers);
    if CanonicalRequestFor(req, sh1) == CanonicalRequestFor(req, sh2) {
      SignedHeadersLineInjective(req.httpMethod, req.path, req.query, block, sh1, sh2, PayloadHash(req.headers));
    }
  }

  /** The canonical request determines its signed-headers line. */
  lemma SignedHeadersLineInjective(m: string, p: string, q: string, hb: string, sh1: string, sh2: string,
                                   pl: string)
    requires CanonicalRequest(m, p, q, hb, sh1, pl) == CanonicalRequest(m, p, q, hb, sh2, pl)
    ensures sh1 == sh2
  {
    var head := m + "\n" + p + "\n" + q + "\n" + hb + "\n";
    var tail := "\n" + pl;
    assert CanonicalRequest(m, p, q, hb, sh1, pl) == head + sh1 + tail;
    assert CanonicalRequest(m, p, q, hb, sh2, pl) == head + sh2 + tail;
    MiddleCancel(head, sh1, sh2, tail);
  }

  function StringToSign(amzDate: string, scope: string, canonicalHash: string): string {
    Algorithm + "\n" + amzDate + "\n" + scope + "\n" + canonicalHash
  }

  /** The four-stage key derivation: `"AWS4" + secret`, then date, region,
      service and the literal terminator. */
  function SigningKey(c: Crypto, secret: string, date: string, region: string, service: string): Bytes {
    var dateKey := c.hmac(Utf8("AWS4" + secret), Utf8(date));
    var regionKey := c.hmac(dateKey, Utf8(region));
    var serviceKey := c.hmac(regionKey, Utf8(service));
    c.hmac(serviceKey, Utf8(Terminator))
  }

  /** `hex::encode` of the HMAC of `text` under `key`. */
  function HexHmac(c: Crypto, key: Bytes, text: string): (sig: string)
    ensures forall i :: 0 <= i < |sig| ==> IsHexDigit(sig[i])
    ensures |sig| == 2 * |c.hmac(key, Utf8(text))|
  {
    Hex(c.hmac(key, Utf8(text)))
  }

  /** The string to sign for `req` under the given scope. */
  function StringToSignFor(c: Crypto, req: Request, scope: CredentialScope, signedHeaders: string): string {
    StringToSign(AmzDate(req.headers), ScopeString(scope), HexSha256(c, CanonicalRequestFor(req, signedHeaders)))
  }

  /** The lowercase hex signature the server computes. */
  function ComputeSignature(c: Crypto, secret: string, req: Request, scope: CredentialScope,
                            signedHeaders: string): (sig: string)
    ensures forall i :: 0 <= i < |sig| ==> IsHexDigit(sig[i])
    ensures Unhex(sig) == Some(c.hmac(SigningKey(c, secret, scope.date, scope.region, scope.service),
                                      Utf8(StringToSignFor(c, req, scope, signedHeaders))))
  {
    var key := SigningKey(c, secret, scope.date, scope.region, scope.service);
    var text := StringToSignFor(c, req, scope, signedHeaders);
    UnhexHex(c.hmac(key, Utf8(text)));
    HexHmac(c, key, text)
  }

  /** `verify_aws_v4_signature`. */
  function VerifyV4(c: Crypto, creds: Credentials, auth: string, req: Request): (ok: bool)
    ensures !StartsWith(auth, AuthPrefix) ==> !ok
    ensures ParseCredential(ParseDirectives(auth).credential).None? ==> !ok
    ensures ok ==> ParseCredential(ParseDirectives(auth).credential).value.accessKey == creds.accessKey
    ensures ok ==> forall i :: 0 <= i < |ParseDirectives(auth).signature| ==>
                      IsHexDigit(ParseDirectives(auth).signature[i])
    ensures ok ==> ParseDirectives(auth).signature
                   == ComputeSignature(c, creds.secretKey, req, ParseCredential(ParseDirectives(auth).credential).value,
                                       ParseDirectives(auth).signedHeaders)
  {
    var d := ParseDirectives(auth);
    if !StartsWith(auth, AuthPrefix) then
      NoPrefixNoCredential(auth);
      false
    else
      match ParseCredential(d.credential)
      case None => false
      case Some(scope) =>
        if scope.accessKey != creds.accessKey then false
        else ComputeSignature(c, creds.secretKey, req, scope, d.signedHeaders) == d.signature
  }

  /** Without the exact prefix the directive list is the one empty part, so
      the credential is empty and splits into one component. */
  lemma NoPrefixNoCredential(auth: string)
    requires !StartsWith(auth, AuthPrefix)
    ensures ParseCredential(ParseDirectives(auth).credential).None?
  {
    assert DirectiveParts(auth) == [""];
    ScanPartsTakesLast([""], Directives("", "", ""));
    assert Split("", "/") == [""];
  }

  /** The credential scope has five components: the terminator is written twice. */
  lemma ScopeDoublesTerminator(s: CredentialScope)
    requires '/' !in s.date && '/' !in s.region && '/' !in s.service
    ensures Split(ScopeString(s), "/") == [s.date, s.region, s.service, Terminator, Terminator]
  {
    var ps := [s.date, s.region, s.service, Terminator, Terminator];
    JoinCons(Terminator, [Terminator], "/");
    JoinCons(s.service, ps[3..], "/");
    JoinCons(s.region, ps[2..], "/");
    JoinCons(s.date, ps[1..], "/");
    assert [s.date] + ps[1..] == ps;
    assert ScopeString(s) == Join(ps, "/");
    SplitJoin(ps, "/");
  }

  /** Only trimmed values enter the header block, so whitespace around a
      value, or an unreadable value in place of an empty one, leaves it as it was. */
  lemma {:induction false} CanonicalHeadersTrimmed(names: seq<string>, h: Headers, k: string,
                                                   v1: Option<string>, v2: Option<string>)
    requires Trim(v1.GetOr("")) == Trim(v2.GetOr(""))
    ensures CanonicalHeaders(names, h[k := v1]) == CanonicalHeaders(names, h[k := v2])
  {
    if |names| > 0 {
      CanonicalHeadersTrimmed(names[1..], h, k, v1, v2);
    }
  }

  /** A header other than the one looked up does not affect a lookup. */
  lemma HeaderTextFrame(h: Headers, k: string, v: Option<string>, name: string)
    requires k != name
    ensures HeaderText(h[k := v], name) == HeaderText(h, name)
  {
  }

  /** Every sorted signed name avoids `k` when every name as sent does. */
  lemma SortedNamesAvoid(signedHeaders: string, k: string)
    requires forall n :: n in Split(signedHeaders, ";") ==> AsciiLower(n) != k
    ensures var names := SortStrings(Split(signedHeaders, ";"));
            forall i :: 0 <= i < |names| ==> AsciiLower(names[i]) != k
  {
    var names := SortStrings(Split(signedHeaders, ";"));
    forall i | 0 <= i < |names| ensures AsciiLower(names[i]) != k {
      assert names[i] in multiset(names);
    }
  }

  /** Two requests with the same method, path, query, header block and
      payload hash have the same canonical request. */
  lemma CanonicalRequestAgree(r1: Request, r2: Request, signedHeaders: string)
    requires r1.httpMethod == r2.httpMethod && r1.path == r2.path && r1.query == r2.query
    requires var names := SortStrings(Split(signedHeaders, ";"));
             CanonicalHeaders(names, r1.headers) == CanonicalHeaders(names, r2.headers)
    requires PayloadHash(r1.headers) == PayloadHash(r2.headers)
    ensures CanonicalRequestFor(r1, signedHeaders) == CanonicalRequestFor(r2, signedHeaders)
  {
  }

  /** The signature depends on the request only through its canonical
      request and its `x-amz-date`. */
  lemma SignatureAgree(c: Crypto, secret: string, r1: Request, r2: Request, scope: CredentialScope,
                       signedHeaders: string)
    requires CanonicalRequestFor(r1, signedHeaders) == CanonicalRequestFor(r2, signedHeaders)
    requires AmzDate(r1.headers) == AmzDate(r2.headers)
    ensures ComputeSignature(c, secret, r1, scope, signedHeaders) == ComputeSignature(c, secret, r2, scope, signedHeaders)
  {
  }

  /** The canonical request ignores a header that is not `x-amz-content-sha256`
      and is named (after lower-casing) by no entry of `SignedHeaders`. */
  lemma CanonicalRequestFrame(req: Request, signedHeaders: string, k: string, v: Option<string>)
    requires k != "x-amz-content-sha256"
    requires forall n :: n in Split(signedHeaders, ";") ==> AsciiLower(n) != k
    ensures CanonicalRequestFor(req.(headers := req.headers[k := v]), signedHeaders)
         == CanonicalRequestFor(req, signedHeaders)
  {
    SortedNamesAvoid(signedHeaders, k);
    CanonicalHeadersFrame(SortStrings(Split(signedHeaders, ";")), req.headers, k, v);
    HeaderTextFrame(req.headers, k, v, "x-amz-content-sha256");
    CanonicalRequestAgree(req.(headers := req.headers[k := v]), req, signedHeaders);
  }

  /** Changing a header that is neither `x-amz-date`, `x-amz-content-sha256`
      nor named (after lower-casing) in `SignedHeaders` leaves the signature alone. */
  lemma SignatureFrame(c: Crypto, secret: string, req: Request, scope: CredentialScope, signedHeaders: string,
                       k: string, v: Option<string>)
    requires k != "x-amz-date" && k != "x-amz-content-sha256"
    requires forall n :: n in Split(signedHeaders, ";") ==> AsciiLower(n) != k
    ensures ComputeSignature(c, secret, req.(headers := req.headers[k := v]), scope, signedHeaders)
         == ComputeSignature(c, secret, req, scope, signedHeaders)
  {
    CanonicalRequestFrame(req, signedHeaders, k, v);
    HeaderTextFrame(req.headers, k, v, "x-amz-date");
    SignatureAgree(c, secret, req.(headers := req.headers[k := v]), req, scope, signedHeaders);
  }

  /** Only the trimmed value of a signed header is signed: two values that
      trim alike give the same signature. */
  lemma SignatureTrimmed(c: Crypto, secret: string, req: Request, scope: CredentialScope, signedHeaders: string,
                         k: string, v1: Option<string>, v2: Option<string>)
    requires k != "x-amz-date" && k != "x-amz-content-sha256"
    requires Trim(v1.GetOr("")) == Trim(v2.GetOr(""))
    ensures ComputeSignature(c, secret, req.(headers := req.headers[k := v1]), scope, signedHeaders)
         == ComputeSignature(c, secret, req.(headers := req.headers[k := v2]), scope, signedHeaders)
  {
    var r1 := req.(headers := req.headers[k := v1]);
    var r2 := req.(headers := req.headers[k := v2]);
    assert CanonicalRequestFor(r1, signedHeaders) == CanonicalRequestFor(r2, signedHeaders) by {
      CanonicalHeadersTrimmed(SortStrings(Split(signedHeaders, ";")), req.headers, k, v1, v2);
      HeaderTextFrame(req.headers, k, v1, "x-amz-content-sha256");
      HeaderTextFrame(req.headers, k, v2, "x-amz-content-sha256");
      CanonicalRequestAgree(r1, r2, signedHeaders);
    }
    assert AmzDate(r1.headers) == AmzDate(r2.headers) by {
      HeaderTextFrame(req.headers, k, v1, "x-amz-date");
      HeaderTextFrame(req.headers, k, v2, "x-amz-date");
    }
    SignatureAgree(c, secret, r1, r2, scope, signedHeaders);
  }

  /** Verification does not look at a header that `SignedHeaders` does not name. */
  lemma VerifyV4Frame(c: Crypto, creds: Credentials, auth: string, req: Request, k: string, v: Option<string>)
    requires k != "x-amz-date" && k != "x-amz-content-sha256"
    requires forall n :: n in Split(ParseDirectives(auth).signedHeaders, ";") ==> AsciiLower(n) != k
    ensures VerifyV4(c, creds, auth, req.(headers := req.headers[k := v])) == VerifyV4(c, creds, auth, req)
  {
    var d := ParseDirectives(auth);
    if StartsWith(auth, AuthPrefix) && ParseCredential(d.credential).Some? {
      SignatureFrame(c, creds.secretKey, req, ParseCredential(d.credential).value, d.signedHeaders, k, v);
    }
  }

  /** Verification sees a header value only up to surrounding whitespace. */
  lemma VerifyV4Trimmed(c: Crypto, creds: Credentials, auth: string, req: Request, k: string,
                        v1: Option<string>, v2: Option<string>)
    requires k != "x-amz-date" && k != "x-amz-content-sha256"
    requires Trim(v1.GetOr("")) == Trim(v2.GetOr(""))
    ensures VerifyV4(c, creds, auth, req.(headers := req.headers[k := v1]))
         == VerifyV4(c, creds, auth, req.(headers := req.headers[k := v2]))
  {
    var d := ParseDirectives(auth);
    if StartsWith(auth, AuthPrefix) && ParseCredential(d.credential).Some? {
      SignatureTrimmed(c, creds.secretKey, req, ParseCredential(d.credential).value, d.signedHeaders, k, v1, v2);
    }
  }

  /** The `Authorization` value with the standard directive layout. */
  function AuthorizationValue(credential: string, signed: string, sig: string): string {
    AuthPrefix + Join([CredentialKey + credential, SignedHeadersKey + signed, SignatureKey + sig],
                      DirectiveSeparator)
  }

  /** What a signing client sends: the `Authorization` value for `req`,
      signing `names` with `secret`. */
  function AuthorizationFor(c: Crypto, accessKey: string, secret: string, date: string, region: string,
                            service: string, names: seq<string>, req: Request): string {
    var scope := CredentialScope(accessKey, date, region, service, Terminator);
    var signed := Join(names, ";");
    AuthorizationValue(Join(scope.Components(), "/"), signed, ComputeSignature(c, secret, req, scope, signed))
  }

  /** The three directives of a well-formed `Authorization` value are read back. */
  lemma ParseDirectivesOf(credential: string, signed: string, sig: string)
    requires ',' !in credential && ',' !in signed && ',' !in sig
    ensures StartsWith(AuthorizationValue(credential, signed, sig), AuthPrefix)
    ensures ParseDirectives(AuthorizationValue(credential, signed, sig)) == Directives(credential, signed, sig)
  {
    var parts := [CredentialKey + credential, SignedHeadersKey + signed, SignatureKey + sig];
    var auth := AuthorizationValue(credential, signed, sig);
    assert auth[..|AuthPrefix|] == AuthPrefix;
    assert StripPrefix(auth, AuthPrefix) == Some(Join(parts, DirectiveSeparator));
    SplitJoin(parts, DirectiveSeparator);
    assert DirectiveParts(auth) == parts;
    ScanPartsTakesLast(parts, Directives("", "", ""));
    KeysExclusive(parts[0]);
    KeysExclusive(parts[1]);
    KeysExclusive(parts[2]);
    assert parts[..2][..1] == [parts[0]];
    assert parts[..2] == [parts[0], parts[1]];
    assert StripPrefix(parts[2], SignatureKey) == Some(sig);
    assert StripPrefix(parts[1], SignedHeadersKey) == Some(signed);
    assert StripPrefix(parts[0], CredentialKey) == Some(credential);
    assert LastValue(parts, SignatureKey) == Some(sig);
    assert LastValue(parts[..2], SignedHeadersKey) == Some(signed);
    assert LastValue(parts, SignedHeadersKey) == Some(signed);
    assert LastValue(parts[..1], CredentialKey) == Some(credential);
    assert LastValue(parts[..2], CredentialKey) == Some(credential);
    assert LastValue(parts, CredentialKey) == Some(credential);
  }

  /** A credential component the parser can recover: no `/`, no `,`. */
  predicate ScopeField(f: string) {
    '/' !in f && ',' !in f
  }

  /** A signed header name the parser can recover: no `;`, no `,`. */
  predicate HeaderNameField(n: string) {
    ';' !in n && ',' !in n
  }

  /** A credential built from plain components parses back into them. */
  lemma CredentialRoundTrip(scope: CredentialScope)
    requires ScopeField(scope.accessKey) && ScopeField(scope.date) && ScopeField(scope.region)
    requires ScopeField(scope.service) && ScopeField(scope.terminator)
    ensures ParseCredential(Join(scope.Components(), "/")) == Some(scope)
    ensures ',' !in Join(scope.Components(), "/")
  {
    var ps := scope.Components();
    assert forall i :: 0 <= i < 5 ==> ScopeField(ps[i]);
    SplitJoin(ps, "/");
    JoinAvoids(ps, "/", ',');
  }

  /** The terminator the code writes is a plain scope component. */
  lemma TerminatorIsField()
    ensures ScopeField(Terminator) && ':' !in Terminator
  {
  }

  /** An `Authorization` value built from a scope of plain components parses back into it. */
  lemma StandardAuthorizationParses(scope: CredentialScope, signed: string, sig: string)
    requires ScopeField(scope.accessKey) && ScopeField(scope.date) && ScopeField(scope.region)
    requires ScopeField(scope.service) && ScopeField(scope.terminator)
    requires ',' !in signed && ',' !in sig
    ensures StartsWith(AuthorizationValue(Join(scope.Components(), "/"), signed, sig), AuthPrefix)
    ensures ParseDirectives(AuthorizationValue(Join(scope.Components(), "/"), signed, sig))
         == Directives(Join(scope.Components(), "/"), signed, sig)
    ensures ParseCredential(Join(scope.Components(), "/")) == Some(scope)
  {
    CredentialRoundTrip(scope);
    ParseDirectivesOf(Join(scope.Components(), "/"), signed, sig);
  }

  /** The same, for signed header names and a hex signature as a client sends them. */
  lemma StandardAuthorizationOf(scope: CredentialScope, names: seq<string>, sig: string)
    requires ScopeField(scope.accessKey) && ScopeField(scope.date) && ScopeField(scope.region)
    requires ScopeField(scope.service) && ScopeField(scope.terminator)
    requires forall i :: 0 <= i < |names| ==> HeaderNameField(names[i])
    requires forall i :: 0 <= i < |sig| ==> IsHexDigit(sig[i])
    ensures StartsWith(AuthorizationValue(Join(scope.Components(), "/"), Join(names, ";"), sig), AuthPrefix)
    ensures ParseDirectives(AuthorizationValue(Join(scope.Components(), "/"), Join(names, ";"), sig))
         == Directives(Join(scope.Components(), "/"), Join(names, ";"), sig)
    ensures ParseCredential(Join(scope.Components(), "/")) == Some(scope)
  {
    JoinAvoids(names, ";", ',');
    HexAvoids(sig, ',');
    StandardAuthorizationParses(scope, Join(names, ";"), sig);
  }

  /** A request signed with the configured keys verifies, whatever the
      primitives are, as long as no field carries one of the separators the
      parser splits on. */
  lemma SignedRequestVerifies(c: Crypto, creds: Credentials, date: string, region: string, service: string,
                              names: seq<string>, req: Request)
    requires ScopeField(creds.accessKey) && ScopeField(date) && ScopeField(region) && ScopeField(service)
    requires |names| >= 1
    requires forall i :: 0 <= i < |names| ==> HeaderNameField(names[i])
    ensures VerifyV4(c, creds, AuthorizationFor(c, creds.accessKey, creds.secretKey, date, region, service,
                                                 names, req), req)
  {
    var scope := CredentialScope(creds.accessKey, date, region, service, Terminator);
    var signed := Join(names, ";");
    var sig := ComputeSignature(c, creds.secretKey, req, scope, signed);
    TerminatorIsField();
    StandardAuthorizationOf(scope, names, sig);
    AcceptsParsed(c, creds, AuthorizationValue(Join(scope.Components(), "/"), signed, sig), req, scope, signed, sig);
  }

  lemma HexAvoids(sig: string, ch: char)
    requires forall i :: 0 <= i < |sig| ==> IsHexDigit(sig[i])
    requires !IsHexDigit(ch)
    ensures ch !in sig
  {
  }

  /** `VerifyV4` accepts once the directives parse to the expected signature. */
  lemma AcceptsParsed(c: Crypto, creds: Credentials, auth: string, req: Request, scope: CredentialScope,
                      signed: string, sig: string)
    requires StartsWith(auth, AuthPrefix)
    requires ParseDirectives(auth) == Directives(Join(scope.Components(), "/"), signed, sig)
    requires ParseCredential(Join(scope.Components(), "/")) == Some(scope)
    requires scope.accessKey == creds.accessKey
    requires sig == ComputeSignature(c, creds.secretKey, req, scope, signed)
    ensures VerifyV4(c, creds, auth, req)
  {
  }

  /** If `SHA-256` and `HMAC` are injective, one `Authorization` value that
      verifies for two requests with the same `x-amz-date` fixes their
      canonical request: the signature covers it entirely. */
  lemma SignatureBindsCanonicalRequest(c: Crypto, creds: Credentials, auth: string, r1: Request, r2: Request)
    requires ShaInjective(c) && HmacInjective(c)
    requires VerifyV4(c, creds, auth, r1) && VerifyV4(c, creds, auth, r2)
    requires AmzDate(r1.headers) == AmzDate(r2.headers)
    ensures CanonicalRequestFor(r1, ParseDirectives(auth).signedHeaders)
         == CanonicalRequestFor(r2, ParseDirectives(auth).signedHeaders)
  {
    var d := ParseDirectives(auth);
    var scope := ParseCredential(d.credential).value;
    var key := SigningKey(c, creds.secretKey, scope.date, scope.region, scope.service);
    var sts1 := StringToSignFor(c, r1, scope, d.signedHeaders);
    var sts2 := StringToSignFor(c, r2, scope, d.signedHeaders);
    HexInjective(c.hmac(key, Utf8(sts1)), c.hmac(key, Utf8(sts2)));
    Utf8Injective(sts1, sts2);
    var cr1 := CanonicalRequestFor(r1, d.signedHeaders);
    var cr2 := CanonicalRequestFor(r2, d.signedHeaders);
    var front := Algorithm + "\n" + AmzDate(r1.headers) + "\n" + ScopeString(scope) + "\n";
    assert front + HexSha256(c, cr1) + [] == front + HexSha256(c, cr2) + [];
    MiddleCancel(front, HexSha256(c, cr1), HexSha256(c, cr2), []);
    HexInjective(c.sha256(Utf8(cr1)), c.sha256(Utf8(cr2)));
    Utf8Injective(cr1, cr2);
  }

  /** The canonical request determines its path and its query string. */
  lemma CanonicalRequestInjective(m: string, p1: string, p2: string, q1: string, q2: string,
                                  hb: string, sh: string, pl: string)
    requires CanonicalRequest(m, p1, q1, hb, sh, pl) == CanonicalRequest(m, p2, q2, hb, sh, pl)
    requires p1 == p2 || q1 == q2
    ensures p1 == p2 && q1 == q2
  {
    if q1 == q2 {
      var tail := "\n" + q1 + "\n" + hb + "\n" + sh + "\n" + pl;
      assert CanonicalRequest(m, p1, q1, hb, sh, pl) == (m + "\n") + p1 + tail;
      assert CanonicalRequest(m, p2, q2, hb, sh, pl) == (m + "\n") + p2 + tail;
      MiddleCancel(m + "\n", p1, p2, tail);
    } else {
      var head := m + "\n" + p1 + "\n";
      var tail := "\n" + hb + "\n" + sh + "\n" + pl;
      assert CanonicalRequest(m, p1, q1, hb, sh, pl) == head + q1 + tail;
      assert CanonicalRequest(m, p2, q2, hb, sh, pl) == head + q2 + tail;
      MiddleCancel(head, q1, q2, tail);
    }
  }

  /** With injective primitives, a verified request no longer verifies once its path changes. */
  lemma TamperedPathRejected(c: Crypto, creds: Credentials, auth: string, req: Request, path: string)
    requires ShaInjective(c) && HmacInjective(c)
    requires VerifyV4(c, creds, auth, req) && path != req.path
    ensures !VerifyV4(c, creds, auth, req.(path := path))
  {
    if VerifyV4(c, creds, auth, req.(path := path)) {
      SignatureBindsCanonicalRequest(c, creds, auth, req, req.(path := path));
      var sh := ParseDirectives(auth).signedHeaders;
      var hb := CanonicalHeaders(SortStrings(Split(sh, ";")), req.headers);
      CanonicalRequestInjective(req.httpMethod, req.path, path, req.query, req.query, hb, sh,
                                PayloadHash(req.headers));
    }
  }

  /** With injective primitives, a verified request no longer verifies once its query string changes. */
  lemma TamperedQueryRejected(c: Crypto, creds: Credentials, auth: string, req: Request, query: string)
    requires ShaInjective(c) && HmacInjective(c)
    requires VerifyV4(c, creds, auth, req) && query != req.query
    ensures !VerifyV4(c, creds, auth, req.(query := query))
  {
    if VerifyV4(c, creds, auth, req.(query := query)) {
      SignatureBindsCanonicalRequest(c, creds, auth, req, req.(query := query));
      var sh := ParseDirectives(auth).signedHeaders;
      var hb := CanonicalHeaders(SortStrings(Split(sh, ";")), req.headers);
      CanonicalRequestInjective(req.httpMethod, req.path, req.path, req.query, query, hb, sh,
                                PayloadHash(req.headers));
    }
  }

  /** The text after the last line break is newline-free, so two texts that
      agree end up agreeing on both sides of that break. */
  lemma LastLineCancel(a: string, h1: string, b: string, h2: string)
    requires '\n' !in h1 && '\n' !in h2
    requires a + "\n" + h1 == b + "\n" + h2
    ensures a == b && h1 == h2
  {
    var s := a + "\n" + h1;
    assert s == b + "\n" + h2;
    assert forall i :: |a| < i < |s| ==> s[i] == h1[i - |a| - 1];
    assert forall i :: |b| < i < |s| ==> s[i] == h2[i - |b| - 1];
    assert s[|a|] == '\n' && s[|b|] == '\n';
    assert |a| == |b|;
    assert a == s[..|a|] && b == s[..|b|];
    assert h1 == s[|a| + 1..] && h2 == s[|b| + 1..];
  }

  /** The string to sign determines its `x-amz-date` line: the hex hash at
      its end holds no line break. */
  lemma StringToSignDateInjective(d1: string, d2: string, scope: string, hash1: string, hash2: string)
    requires forall i :: 0 <= i < |hash1| ==> IsHexDigit(hash1[i])
    requires forall i :: 0 <= i < |hash2| ==> IsHexDigit(hash2[i])
    requires StringToSign(d1, scope, hash1) == StringToSign(d2, scope, hash2)
    ensures d1 == d2
  {
    HexAvoids(hash1, '\n');
    HexAvoids(hash2, '\n');
    var head := Algorithm + "\n";
    assert StringToSign(d1, scope, hash1) == head + d1 + "\n" + scope + "\n" + hash1;
    assert StringToSign(d2, scope, hash2) == head + d2 + "\n" + scope + "\n" + hash2;
    LastLineCancel(head + d1 + "\n" + scope, hash1, head + d2 + "\n" + scope, hash2);
    assert head + d1 + "\n" + scope == head + d1 + ("\n" + scope);
    assert head + d2 + "\n" + scope == head + d2 + ("\n" + scope);
    MiddleCancel(head, d1, d2, "\n" + scope);
  }

  /** With an injective MAC, a verified request no longer verifies once the
      `x-amz-date` value it reads changes, whether or not that header is
      signed: the date is a line of the string to sign. */
  lemma TamperedDateRejected(c: Crypto, creds: Credentials, auth: string, req: Request, h: Headers)
    requires HmacInjective(c)
    requires VerifyV4(c, creds, auth, req)
    requires AmzDate(req.headers) != AmzDate(h)
    ensures !VerifyV4(c, creds, auth, req.(headers := h))
  {
    var r2 := req.(headers := h);
    if VerifyV4(c, creds, auth, r2) {
      var d := ParseDirectives(auth);
      var scope := ParseCredential(d.credential).value;
      var key := SigningKey(c, creds.secretKey, scope.date, scope.region, scope.service);
      var sts1 := StringToSignFor(c, req, scope, d.signedHeaders);
      var sts2 := StringToSignFor(c, r2, scope, d.signedHeaders);
      HexInjective(c.hmac(key, Utf8(sts1)), c.hmac(key, Utf8(sts2)));
      assert Utf8(sts1) == Utf8(sts2);
      Utf8Injective(sts1, sts2);
      StringToSignDateInjective(AmzDate(req.headers), AmzDate(h), ScopeString(scope),
                                HexSha256(c, CanonicalRequestFor(req, d.signedHeaders)),
                                HexSha256(c, CanonicalRequestFor(r2, d.signedHeaders)));
    }
  }

  /** A client that signs with the standard four-component scope
      `date/region/service/aws4_request` is rejected when the primitives are
      injective: the doubled terminator is part of what the server signs. */
  lemma StandardScopeRejected(c: Crypto, creds: Credentials, auth: string, req: Request)
    requires ShaInjective(c) && HmacInjective(c)
    requires ParseCredential(ParseDirectives(auth).credential).Some?
    requires
      var d := ParseDirectives(auth);
      var scope := ParseCredential(d.credential).value;
      var standard := scope.date + "/" + scope.region + "/" + scope.service + "/" + Terminator;
      var toSign := StringToSign(AmzDate(req.headers), standard, HexSha256(c, CanonicalRequestFor(req, d.signedHeaders)));
      d.signature == HexHmac(c, SigningKey(c, creds.secretKey, scope.date, scope.region, scope.service), toSign)
    ensures !VerifyV4(c, creds, auth, req)
  {
    var d := ParseDirectives(auth);
    var scope := ParseCredential(d.credential).value;
    var key := SigningKey(c, creds.secretKey, scope.date, scope.region, scope.service);
    var standard := scope.date + "/" + scope.region + "/" + scope.service + "/" + Terminator;
    var hash := HexSha256(c, CanonicalRequestFor(req, d.signedHeaders));
    var good := StringToSign(AmzDate(req.headers), standard, hash);
    var served := StringToSignFor(c, req, scope, d.signedHeaders);
    if VerifyV4(c, creds, auth, req) {
      HexInjective(c.hmac(key, Utf8(good)), c.hmac(key, Utf8(served)));
      Utf8Injective(good, served);
    }
  }

  /** `h1` and `h2` differ at most in header `k`. */
  ghost predicate AgreeExcept(h1: Headers, h2: Headers, k: string) {
    forall x :: x != k ==> (x in h1 <==> x in h2) && (x in h1 ==> h1[x] == h2[x])
  }

  /** What the header block can show of header `k`: its trimmed value, an
      unreadable value counting as empty, or nothing when it is absent. */
  function Shown(h: Headers, k: string): Option<string> {
    if k in h then Some(Trim(h[k].GetOr(""))) else None
  }

  /** Header `k` shows strictly less in `h1` than in `h2`: absent against
      present, or a shorter trimmed value. */
  predicate ShowsLess(h1: Headers, h2: Headers, k: string) {
    k in h2 && (k !in h1 || |Trim(h1[k].GetOr(""))| < |Trim(h2[k].GetOr(""))|)
  }

  /** The header block grows with what header `k` shows, strictly so when a
      signed name refers to `k`. */
  lemma {:induction false} CanonicalHeadersGrow(names: seq<string>, h1: Headers, h2: Headers, k: string)
    requires AgreeExcept(h1, h2, k) && ShowsLess(h1, h2, k)
    ensures |CanonicalHeaders(names, h1)| <= |CanonicalHeaders(names, h2)|
    ensures (exists i :: 0 <= i < |names| && AsciiLower(names[i]) == k) ==>
              |CanonicalHeaders(names, h1)| < |CanonicalHeaders(names, h2)|
  {
    if |names| > 0 {
      CanonicalHeadersGrow(names[1..], h1, h2, k);
      if AsciiLower(names[0]) != k {
        assert HeaderLine(names[0], h1) == HeaderLine(names[0], h2);
      }
      forall i | 0 < i < |names| && AsciiLower(names[i]) == k
        ensures exists j :: 0 <= j < |names[1..]| && AsciiLower(names[1..][j]) == k
      {
        assert names[1..][i - 1] == names[i];
      }
    }
  }

  /** Two values of header `k` of one length that trim differently give
      different header blocks when a signed name refers to `k`. */
  lemma {:induction false} CanonicalHeadersSameLengthDiffer(names: seq<string>, h1: Headers, h2: Headers, k: string, i: nat)
    requires AgreeExcept(h1, h2, k) && k in h1 && k in h2
    requires |Trim(h1[k].GetOr(""))| == |Trim(h2[k].GetOr(""))|
    requires Trim(h1[k].GetOr("")) != Trim(h2[k].GetOr(""))
    requires i < |names| && AsciiLower(names[i]) == k
    ensures CanonicalHeaders(names, h1) != CanonicalHeaders(names, h2)
  {
    var l1, l2 := HeaderLine(names[0], h1), HeaderLine(names[0], h2);
    var r1, r2 := CanonicalHeaders(names[1..], h1), CanonicalHeaders(names[1..], h2);
    if i == 0 || AsciiLower(names[0]) == k {
      assert AsciiLower(names[0]) == k;
      LineValueDiffers(names[0], Trim(h1[k].GetOr("")), Trim(h2[k].GetOr("")));
      SameLengthHeadsDiffer(l1, l2, r1, r2);
    } else {
      HeaderLineAgree(names[0], h1, h2, k);
      assert names[1..][i - 1] == names[i];
      CanonicalHeadersSameLengthDiffer(names[1..], h1, h2, k, i - 1);
      SharedHeadTailsDiffer(l1, r1, r2);
    }
  }

  /** A line for a name that is not `k` reads the same in maps that differ only at `k`. */
  lemma HeaderLineAgree(name: string, h1: Headers, h2: Headers, k: string)
    requires AgreeExcept(h1, h2, k) && AsciiLower(name) != k
    ensures HeaderLine(name, h1) == HeaderLine(name, h2)
  {
    var x := AsciiLower(name);
    assert (x in h1 <==> x in h2) && (x in h1 ==> h1[x] == h2[x]);
  }

  /** A header line of one name tells apart two values of one length. */
  lemma LineValueDiffers(name: string, t1: string, t2: string)
    requires |t1| == |t2| && t1 != t2
    ensures |name + ":" + t1 + "\n"| == |name + ":" + t2 + "\n"|
    ensures name + ":" + t1 + "\n" != name + ":" + t2 + "\n"
  {
    assert (name + ":" + t1 + "\n")[|name| + 1..|name| + 1 + |t1|] == t1;
    assert (name + ":" + t2 + "\n")[|name| + 1..|name| + 1 + |t2|] == t2;
  }

  /** Different heads of one length keep two concatenations apart. */
  lemma SameLengthHeadsDiffer(a1: string, a2: string, b1: string, b2: string)
    requires |a1| == |a2| && a1 != a2
    ensures a1 + b1 != a2 + b2
  {
    assert (a1 + b1)[..|a1|] == a1 && (a2 + b2)[..|a2|] == a2;
  }

  /** A shared head keeps different tails apart. */
  lemma SharedHeadTailsDiffer(a: string, b1: string, b2: string)
    requires b1 != b2
    ensures a + b1 != a + b2
  {
    assert (a + b1)[|a|..] == b1 && (a + b2)[|a|..] == b2;
  }

  /** The header block tells apart every change to what a signed header shows. */
  lemma CanonicalHeadersDiffer(names: seq<string>, h1: Headers, h2: Headers, k: string)
    requires AgreeExcept(h1, h2, k) && Shown(h1, k) != Shown(h2, k)
    requires exists i :: 0 <= i < |names| && AsciiLower(names[i]) == k
    ensures CanonicalHeaders(names, h1) != CanonicalHeaders(names, h2)
  {
    assert AgreeExcept(h2, h1, k);
    if ShowsLess(h1, h2, k) {
      CanonicalHeadersGrow(names, h1, h2, k);
    } else if ShowsLess(h2, h1, k) {
      CanonicalHeadersGrow(names, h2, h1, k);
    } else {
      var i :| 0 <= i < |names| && AsciiLower(names[i]) == k;
      CanonicalHeadersSameLengthDiffer(names, h1, h2, k, i);
    }
  }

  /** Headers other than `k`, read the same in both maps, make the same block. */
  lemma {:induction false} CanonicalHeadersAgree(names: seq<string>, h1: Headers, h2: Headers, k: string)
    requires AgreeExcept(h1, h2, k)
    requires forall i :: 0 <= i < |names| ==> AsciiLower(names[i]) != k
    ensures CanonicalHeaders(names, h1) == CanonicalHeaders(names, h2)
  {
    if |names| > 0 {
      HeaderLineAgree(names[0], h1, h2, k);
      CanonicalHeadersAgree(names[1..], h1, h2, k);
    }
  }

  /** The canonical request determines its header block. */
  lemma HeaderBlockInjective(m: string, p: string, q: string, hb1: string, hb2: string, sh: string, pl: string)
    requires CanonicalRequest(m, p, q, hb1, sh, pl) == CanonicalRequest(m, p, q, hb2, sh, pl)
    ensures hb1 == hb2
  {
    var head := m + "\n" + p + "\n" + q + "\n";
    var tail := "\n" + sh + "\n" + pl;
    assert CanonicalRequest(m, p, q, hb1, sh, pl) == head + hb1 + tail;
    assert CanonicalRequest(m, p, q, hb2, sh, pl) == head + hb2 + tail;
    MiddleCancel(head, hb1, hb2, tail);
  }

  /** The canonical request determines its payload line. */
  lemma PayloadLineInjective(m: string, p: string, q: string, hb: string, sh: string, pl1: string, pl2: string)
    requires CanonicalRequest(m, p, q, hb, sh, pl1) == CanonicalRequest(m, p, q, hb, sh, pl2)
    ensures pl1 == pl2
  {
    var head := m + "\n" + p + "\n" + q + "\n" + hb + "\n" + sh + "\n";
    assert CanonicalRequest(m, p, q, hb, sh, pl1) == head + pl1 + [];
    assert CanonicalRequest(m, p, q, hb, sh, pl2) == head + pl2 + [];
    MiddleCancel(head, pl1, pl2, []);
  }

  /** Some sorted signed name refers to `k` when some name as sent does. */
  lemma SortedNamesReach(signedHeaders: string, k: string)
    requires exists n :: n in Split(signedHeaders, ";") && AsciiLower(n) == k
    ensures var names := SortStrings(Split(signedHeaders, ";"));
            exists i :: 0 <= i < |names| && AsciiLower(names[i]) == k
  {
    var n :| n in Split(signedHeaders, ";") && AsciiLower(n) == k;
    var names := SortStrings(Split(signedHeaders, ";"));
    assert n in multiset(Split(signedHeaders, ";"));
    assert n in names;
  }

  /** With injective primitives, a verified request no longer verifies once a
      header that `SignedHeaders` names changes what it shows: its presence,
      or its trimmed value with an unreadable value counting as empty.
      `x-amz-date` and `x-amz-content-sha256` also enter the string to sign
      and the payload line, and are left to other lemmas. */
  lemma TamperedSignedHeaderRejected(c: Crypto, creds: Credentials, auth: string, req: Request, h: Headers,
                                     k: string)
    requires ShaInjective(c) && HmacInjective(c)
    requires VerifyV4(c, creds, auth, req)
    requires k != "x-amz-date" && k != "x-amz-content-sha256"
    requires exists n :: n in Split(ParseDirectives(auth).signedHeaders, ";") && AsciiLower(n) == k
    requires AgreeExcept(req.headers, h, k) && Shown(req.headers, k) != Shown(h, k)
    ensures !VerifyV4(c, creds, auth, req.(headers := h))
  {
    var req' := req.(headers := h);
    if VerifyV4(c, creds, auth, req') {
      assert HeaderText(h, "x-amz-date") == HeaderText(req.headers, "x-amz-date");
      assert HeaderText(h, "x-amz-content-sha256") == HeaderText(req.headers, "x-amz-content-sha256");
      SignatureBindsCanonicalRequest(c, creds, auth, req, req');
      var sh := ParseDirectives(auth).signedHeaders;
      var names := SortStrings(Split(sh, ";"));
      SortedNamesReach(sh, k);
      CanonicalHeadersDiffer(names, req.headers, h, k);
      HeaderBlockInjective(req.httpMethod, req.path, req.query, CanonicalHeaders(names, req.headers),
                           CanonicalHeaders(names, h), sh, PayloadHash(req.headers));
    }
  }

  /** With injective primitives, a verified request no longer verifies once
      its payload hash changes, when `SignedHeaders` does not name
      `x-amz-content-sha256`. The payload hash of an absent or unreadable
      header is `UNSIGNED-PAYLOAD`, so that change alone is no change. */
  lemma TamperedPayloadHashRejected(c: Crypto, creds: Credentials, auth: string, req: Request, h: Headers)
    requires ShaInjective(c) && HmacInjective(c)
    requires VerifyV4(c, creds, auth, req)
    requires forall n :: n in Split(ParseDirectives(auth).signedHeaders, ";") ==>
               AsciiLower(n) != "x-amz-content-sha256"
    requires AgreeExcept(req.headers, h, "x-amz-content-sha256") && PayloadHash(req.headers) != PayloadHash(h)
    ensures !VerifyV4(c, creds, auth, req.(headers := h))
  {
    var req' := req.(headers := h);
    if VerifyV4(c, creds, auth, req') {
      assert HeaderText(h, "x-amz-date") == HeaderText(req.headers, "x-amz-date");
      SignatureBindsCanonicalRequest(c, creds, auth, req, req');
      var sh := ParseDirectives(auth).signedHeaders;
      var names := SortStrings(Split(sh, ";"));
      SortedNamesAvoid(sh, "x-amz-content-sha256");
      CanonicalHeadersAgree(names, req.headers, h, "x-amz-content-sha256");
      PayloadLineInjective(req.httpMethod, req.path, req.query, CanonicalHeaders(names, req.headers), sh,
                           PayloadHash(req.headers), PayloadHash(h));
    }
  }

  /** Two maps that differ only in an unsigned header other than `x-amz-date`,
      with the same payload hash, give the same canonical request and date. */
  lemma SamePayloadSameRequest(req: Request, h1: Headers, h2: Headers, signedHeaders: string, k: string)
    requires AgreeExcept(h1, h2, k) && k != "x-amz-date"
    requires forall n :: n in Split(signedHeaders, ";") ==> AsciiLower(n) != k
    requires PayloadHash(h1) == PayloadHash(h2)
    ensures CanonicalRequestFor(req.(headers := h1), signedHeaders) == CanonicalRequestFor(req.(headers := h2), signedHeaders)
    ensures AmzDate(h1) == AmzDate(h2)
  {
    SortedNamesAvoid(signedHeaders, k);
    CanonicalHeadersAgree(SortStrings(Split(signedHeaders, ";")), h1, h2, k);
    CanonicalRequestAgree(req.(headers := h1), req.(headers := h2), signedHeaders);
    assert HeaderText(h1, "x-amz-date") == HeaderText(h2, "x-amz-date");
  }

  /** The verdict depends on the request only through its canonical request
      and its `x-amz-date`. */
  lemma VerifyV4Agree(c: Crypto, creds: Credentials, auth: string, r1: Request, r2: Request)
    requires CanonicalRequestFor(r1, ParseDirectives(auth).signedHeaders)
          == CanonicalRequestFor(r2, ParseDirectives(auth).signedHeaders)
    requires AmzDate(r1.headers) == AmzDate(r2.headers)
    ensures VerifyV4(c, creds, auth, r1) == VerifyV4(c, creds, auth, r2)
  {
    var d := ParseDirectives(auth);
    if StartsWith(auth, AuthPrefix) && ParseCredential(d.credential).Some? {
      SignatureAgree(c, creds.secretKey, r1, r2, ParseCredential(d.credential).value, d.signedHeaders);
    }
  }

  /** The exception: an absent, an unreadable and an explicit
      `UNSIGNED-PAYLOAD` payload hash header verify alike when `SignedHeaders`
      does not name it. */
  lemma UnsignedPayloadDefault(c: Crypto, creds: Credentials, auth: string, req: Request)
    requires forall n :: n in Split(ParseDirectives(auth).signedHeaders, ";") ==>
               AsciiLower(n) != "x-amz-content-sha256"
    ensures VerifyV4(c, creds, auth, req.(headers := req.headers - {"x-amz-content-sha256"}))
         == VerifyV4(c, creds, auth, req.(headers := req.headers["x-amz-content-sha256" := Some(UnsignedPayload)]))
    ensures VerifyV4(c, creds, auth, req.(headers := req.headers["x-amz-content-sha256" := None]))
         == VerifyV4(c, creds, auth, req.(headers := req.headers["x-amz-content-sha256" := Some(UnsignedPayload)]))
  {
    var k := "x-amz-content-sha256";
    var h0 := req.headers - {k};
    var h1 := req.headers[k := Some(UnsignedPayload)];
    var h2 := req.headers[k := None];
    var sh := ParseDirectives(auth).signedHeaders;
    assert AgreeExcept(h0, h1, k) && PayloadHash(h0) == PayloadHash(h1);
    assert AgreeExcept(h2, h1, k) && PayloadHash(h2) == PayloadHash(h1);
    SamePayloadSameRequest(req, h0, h1, sh, k);
    SamePayloadSameRequest(req, h2, h1, sh, k);
    VerifyV4Agree(c, creds, auth, req.(headers := h0), req.(headers := h1));
    VerifyV4Agree(c, creds, auth, req.(headers := h2), req.(headers := h1));
  }
}

=== FILE: sorting.dfy ===
/** Sorting by a string key in Rust's byte-wise order: `sort_unstable` on the
    signed header names and `sort_by(|a, b| a.key.cmp(&b.key))` on listed
    objects. Insertion sort; equal keys keep their input order. */
module Sorting {
  import opened Text

  predicate SortedBy<T>(s: seq<T>, key: T -> string) {
    forall i, j :: 0 <= i < j < |s| ==> LessEq(key(s[i]), key(s[j]))
  }

  /** Inserts `x` into the sorted `s` before the first element it does not follow. */
  function InsertBy<T>(x: T, s: seq<T>, key: T -> string): (r: seq<T>)
    requires SortedBy(s, key)
    ensures SortedBy(r, key)
    ensures multiset(r) == multiset(s) + multiset{x}
  {
    if |s| == 0 then [x]
    else if LessEq(key(x), key(s[0])) then
      forall j | 0 <= j < |s| ensures LessEq(key(x), key(s[j])) {
        if j > 0 {
          LessEqTransitive(key(x), key(s[0]), key(s[j]));
        }
      }
      assert s == [s[0]] + s[1..];
      [x] + s
    else
      LessEqTotal(key(x), key(s[0]));
      var tail := InsertBy(x, s[1..], key);
      forall y | y in tail ensures LessEq(key(s[0]), key(y)) {
        assert y in multiset(tail);
        if y != x {
          assert y in multiset(s[1..]);
        }
      }
      assert s == [s[0]] + s[1..];
      [s[0]] + tail
  }

  /** A sorted permutation of `s`. */
  function SortBy<T>(s: seq<T>, key: T -> string): (r: seq<T>)
    ensures SortedBy(r, key)
    ensures multiset(r) == multiset(s)
  {
    if |s| == 0 then []
    else
      assert s == [s[0]] + s[1..];
      InsertBy(s[0], SortBy(s[1..], key), key)
  }

  function Identity(s: string): string {
    s
  }

  /** `slice::sort_unstable` on strings. */
  function SortStrings(s: seq<string>): (r: seq<string>)
    ensures SortedBy(r, Identity)
    ensures multiset(r) == multiset(s)
  {
    SortBy(s, Identity)
  }

  /** Dropping the same first element keeps two multisets equal. */
  lemma MultisetTail<T>(a: seq<T>, b: seq<T>)
    requires |a| > 0 && |b| > 0 && a[0] == b[0]
    requires multiset(a) == multiset(b)
    ensures multiset(a[1..]) == multiset(b[1..])
  {
    assert a == [a[0]] + a[1..];
    assert b == [b[0]] + b[1..];
    assert multiset(a[1..]) == multiset(a) - multiset{a[0]};
    assert multiset(b[1..]) == multiset(b) - multiset{b[0]};
  }

  lemma SortedTail(a: seq<string>)
    requires |a| > 0 && SortedBy(a, Identity)
    ensures SortedBy(a[1..], Identity)
  {
    forall i, j | 0 <= i < j < |a| - 1 ensures LessEq(Identity(a[1..][i]), Identity(a[1..][j])) {
      assert a[1..][i] == a[i + 1] && a[1..][j] == a[j + 1];
    }
  }

  /** Two sorted arrangements of the same strings are the same sequence:
      byte-wise order is total and antisymmetric. */
  lemma {:induction false} SortedUnique(a: seq<string>, b: seq<string>)
    requires SortedBy(a, Identity) && SortedBy(b, Identity)
    requires multiset(a) == multiset(b)
    ensures a == b
    decreases |a|
  {
    assert |a| == |multiset(a)| == |multiset(b)| == |b|;
    if |a| > 0 {
      assert a[0] in multiset(b) && b[0] in multiset(a);
      var j :| 0 <= j < |b| && b[j] == a[0];
      var i :| 0 <= i < |a| && a[i] == b[0];
      if j == 0 { LessEqReflexive(a[0]); } else { assert LessEq(Identity(b[0]), Identity(b[j])); }
      if i == 0 { LessEqReflexive(b[0]); } else { assert LessEq(Identity(a[0]), Identity(a[i])); }
      LessEqAntisymmetric(a[0], b[0]);
      MultisetTail(a, b);
      SortedTail(a);
      SortedTail(b);
      SortedUnique(a[1..], b[1..]);
    }
  }

  /** The sorted names depend only on which names there are, not on their order. */
  lemma SortStringsOrderFree(s: seq<string>, t: seq<string>)
    requires multiset(s) == multiset(t)
    ensures SortStrings(s) == SortStrings(t)
  {
    SortedUnique(SortStrings(s), SortStrings(t));
  }
}

=== FILE: store.dfy ===
/** The bucket: `list_objects` over the entries of the data directory, and
    `get_object`, `put_object`, `delete_object`, `head_object` over a store
    from keys to file contents. */
module ObjectStore {
  import opened Wrappers
  import opened Text
  import opened Encoding
  import opened Sorting
  import opened Digest

  /** One entry of the data directory. `isFile` is false for directories and
      for entries whose metadata cannot be read; both are skipped. */
  datatype Entry = Entry(name: string, isFile: bool, size: nat)

  /** A `<Contents>` element; `LastModified` is not modelled. */
  datatype ObjectInfo = ObjectInfo(key: string, etag: string, size: nat, storageClass: string)

  /** The `max-keys`, `prefix` and `marker` query parameters. */
  datatype ListQuery = ListQuery(maxKeys: Option<nat>, prefix: Option<string>, marker: Option<string>)

  datatype ListBucketResult = ListBucketResult(xmlns: string, name: string, prefix: string, marker: string,
                                               maxKeys: nat, isTruncated: bool, contents: seq<ObjectInfo>)

  const MaxKeysLimit: nat := 1000
  const Xmlns := "http://s3.amazonaws.com/doc/2006-03-01/"
  const StandardClass := "STANDARD"

  /** `max_keys.unwrap_or(1000).min(1000)`. */
  function EffectiveMaxKeys(maxKeys: Option<nat>): (m: nat)
    ensures m <= MaxKeysLimit
    ensures maxKeys.Some? && maxKeys.value <= MaxKeysLimit ==> m == maxKeys.value
    ensures maxKeys.None? || maxKeys.value >= MaxKeysLimit ==> m == MaxKeysLimit
  {
    var m := maxKeys.GetOr(MaxKeysLimit);
    if m < MaxKeysLimit then m else MaxKeysLimit
  }

  /** How many entries the listing loop keeps: the length test follows the
      push, so at least one matching entry gets in even when `max-keys` is 0. */
  function Cap(maxKeys: nat): (n: nat)
    ensures n >= 1 && n >= maxKeys
    ensures n == maxKeys || (maxKeys == 0 && n == 1)
  {
    if maxKeys == 0 then 1 else maxKeys
  }

  /** The listing ETag: hex SHA-256 of `name:size`, quoted. It hashes the
      name and size, not the contents. */
  function ListETag(c: Crypto, name: string, size: nat): string {
    ETag(c, Utf8(name + ":" + Decimal(size)))
  }

  function InfoOf(c: Crypto, e: Entry): ObjectInfo {
    ObjectInfo(e.name, ListETag(c, e.name, e.size), e.size, StandardClass)
  }

  function KeyOf(o: ObjectInfo): string {
    o.key
  }

  function Infos(c: Crypto, es: seq<Entry>): (r: seq<ObjectInfo>)
    ensures |r| == |es|
    ensures forall i :: 0 <= i < |es| ==> r[i] == InfoOf(c, es[i])
  {
    seq(|es|, i requires 0 <= i < |es| => InfoOf(c, es[i]))
  }

  /** A regular file whose name starts with the prefix. */
  predicate Listed(e: Entry, prefix: string) {
    e.isFile && StartsWith(e.name, prefix)
  }

  /** The listable entries, in directory order. */
  function Matches(es: seq<Entry>, prefix: string): (r: seq<Entry>)
    ensures |r| <= |es|
    ensures forall e :: e in r <==> e in es && Listed(e, prefix)
  {
    if |es| == 0 then []
    else
      var init := es[..|es| - 1];
      var last := es[|es| - 1];
      assert es == init + [last];
      Matches(init, prefix) + (if Listed(last, prefix) then [last] else [])
  }

  /** What the loop collects: the first `Cap(maxKeys)` listable entries in
      directory order, or all of them if there are fewer. */
  function Selected(es: seq<Entry>, prefix: string, maxKeys: nat): (r: seq<Entry>)
    ensures |r| <= Cap(maxKeys) && |r| <= |Matches(es, prefix)|
    ensures r == Matches(es, prefix)[..|r|]
    ensures |Matches(es, prefix)| <= Cap(maxKeys) ==> r == Matches(es, prefix)
    ensures |Matches(es, prefix)| > Cap(maxKeys) ==> |r| == Cap(maxKeys)
  {
    var m := Matches(es, prefix);
    if |m| <= Cap(maxKeys) then m else m[..Cap(maxKeys)]
  }

  /** The listable entries of a directory prefix are a prefix of the listable entries. */
  lemma {:induction false} MatchesPrefix(es: seq<Entry>, prefix: string, j: nat)
    requires j <= |es|
    ensures |Matches(es[..j], prefix)| <= |Matches(es, prefix)|
    ensures Matches(es, prefix)[..|Matches(es[..j], prefix)|] == Matches(es[..j], prefix)
    decreases |es| - j
  {
    if j < |es| {
      var init := es[..|es| - 1];
      assert init[..j] == es[..j];
      MatchesPrefix(init, prefix, j);
      assert es[..|es|] == es;
    } else {
      assert es[..j] == es;
    }
  }

  /** One more directory entry adds itself when listable. */
  lemma MatchesStep(es: seq<Entry>, prefix: string, i: nat)
    requires i < |es|
    ensures Matches(es[..i + 1], prefix)
         == Matches(es[..i], prefix) + (if Listed(es[i], prefix) then [es[i]] else [])
  {
    assert es[..i + 1][..i] == es[..i];
  }

  lemma InfosAppend(c: Crypto, es: seq<Entry>, e: Entry)
    ensures Infos(c, es + [e]) == Infos(c, es) + [InfoOf(c, e)]
  {
  }

  /** The loop stops after a push that brings it to the cap: what it holds
      is then the selection. */
  lemma SelectedAtStop(es: seq<Entry>, prefix: string, maxKeys: nat, i: nat)
    requires i < |es|
    requires |Matches(es[..i + 1], prefix)| == Cap(maxKeys)
    ensures Selected(es, prefix, maxKeys) == Matches(es[..i + 1], prefix)
  {
    MatchesPrefix(es, prefix, i + 1);
  }

  /** The loop ran to the end below the cap: it holds every listable entry. */
  lemma SelectedAtEnd(es: seq<Entry>, prefix: string, maxKeys: nat)
    requires |Matches(es[..|es|], prefix)| < Cap(maxKeys)
    ensures Selected(es, prefix, maxKeys) == Matches(es[..|es|], prefix)
  {
    assert es[..|es|] == es;
  }

  /** One turn of the loop: the records so far, plus the entry's when listable. */
  lemma CollectStep(c: Crypto, es: seq<Entry>, prefix: string, i: nat, objects: seq<ObjectInfo>)
    requires i < |es|
    requires objects == Infos(c, Matches(es[..i], prefix))
    ensures (if Listed(es[i], prefix) then objects + [InfoOf(c, es[i])] else objects)
         == Infos(c, Matches(es[..i + 1], prefix))
  {
    MatchesStep(es, prefix, i);
    InfosAppend(c, Matches(es[..i], prefix), es[i]);
  }

  /** A stop at the cap returns the records of the selection. */
  lemma CollectStop(c: Crypto, es: seq<Entry>, prefix: string, maxKeys: nat, i: nat, objects: seq<ObjectInfo>)
    requires i < |es|
    requires objects == Infos(c, Matches(es[..i + 1], prefix))
    requires |objects| == Cap(maxKeys)
    ensures objects == Infos(c, Selected(es, prefix, maxKeys))
  {
    SelectedAtStop(es, prefix, maxKeys, i);
  }

  /** Running off the end below the cap returns the records of the selection. */
  lemma CollectEnd(c: Crypto, es: seq<Entry>, prefix: string, maxKeys: nat, objects: seq<ObjectInfo>)
    requires objects == Infos(c, Matches(es[..|es|], prefix))
    requires |objects| < Cap(maxKeys)
    ensures objects == Infos(c, Selected(es, prefix, maxKeys))
  {
    SelectedAtEnd(es, prefix, maxKeys);
  }

  /** The directory-scanning loop of `list_objects`: push each listable
      entry, and stop once the list holds at least `maxKeys` objects. */
  method Collect(c: Crypto, entries: seq<Entry>, prefix: string, maxKeys: nat) returns (objects: seq<ObjectInfo>)
    ensures objects == Infos(c, Selected(entries, prefix, maxKeys))
  {
    objects := [];
    var i := 0;
    while i < |entries|
      invariant 0 <= i <= |entries|
      invariant objects == Infos(c, Matches(entries[..i], prefix))
      invariant |objects| < Cap(maxKeys)
    {
      var e := entries[i];
      CollectStep(c, entries, prefix, i, objects);
      if Listed(e, prefix) {
        objects := objects + [InfoOf(c, e)];
        if |objects| >= maxKeys {
          CollectStop(c, entries, prefix, maxKeys, i, objects);
          return;
        }
      }
      i := i + 1;
    }
    CollectEnd(c, entries, prefix, maxKeys, objects);
  }

  /** `list_objects`: collect, then sort by key. The result is never truncated. */
  method ListObjects(c: Crypto, bucket: string, entries: seq<Entry>, q: ListQuery) returns (r: ListBucketResult)
    ensures r.xmlns == Xmlns && r.name == bucket && !r.isTruncated
    ensures r.prefix == q.prefix.GetOr("") && r.marker == q.marker.GetOr("")
    ensures r.maxKeys == EffectiveMaxKeys(q.maxKeys)
    ensures SortedBy(r.contents, KeyOf)
    ensures multiset(r.contents) == multiset(Infos(c, Selected(entries, r.prefix, r.maxKeys)))
  {
    var maxKeys := EffectiveMaxKeys(q.maxKeys);
    var prefix := q.prefix.GetOr("");
    var objects := Collect(c, entries, prefix, maxKeys);
    r := ListBucketResult(Xmlns, bucket, prefix, q.marker.GetOr(""), maxKeys, false, SortBy(objects, KeyOf));
  }

  /** Everything listed is a regular file under the prefix, reported with its
      size, the `STANDARD` class and the name-and-size ETag. */
  lemma ListedSound(c: Crypto, entries: seq<Entry>, prefix: string, maxKeys: nat, contents: seq<ObjectInfo>)
    requires multiset(contents) == multiset(Infos(c, Selected(entries, prefix, maxKeys)))
    ensures |contents| <= Cap(maxKeys)
    ensures forall o :: o in contents ==>
              exists e :: e in entries && Listed(e, prefix) && o == InfoOf(c, e)
    ensures forall o :: o in contents ==>
              StartsWith(o.key, prefix) && o.etag == ListETag(c, o.key, o.size) && o.storageClass == StandardClass
  {
    var sel := Selected(entries, prefix, maxKeys);
    assert |contents| == |multiset(contents)| == |Infos(c, sel)|;
    forall o | o in contents
      ensures exists e :: e in entries && Listed(e, prefix) && o == InfoOf(c, e)
    {
      assert o in multiset(Infos(c, sel));
      var e := InfoSource(c, sel, o);
      assert e in Matches(entries, prefix);
    }
  }

  /** Each object of `Infos(c, es)` comes from an entry of `es`. */
  lemma InfoSource(c: Crypto, es: seq<Entry>, o: ObjectInfo) returns (e: Entry)
    requires o in Infos(c, es)
    ensures e in es && o == InfoOf(c, e)
  {
    var k :| 0 <= k < |es| && Infos(c, es)[k] == o;
    e := es[k];
  }

  /** When the listable entries fit under the cap, all of them are listed. */
  lemma ListedComplete(entries: seq<Entry>, prefix: string, maxKeys: nat)
    requires |Matches(entries, prefix)| <= Cap(maxKeys)
    ensures Selected(entries, prefix, maxKeys) == Matches(entries, prefix)
  {
  }

  /** `max-keys=0` still lists one object when any is listable. */
  lemma MaxKeysZeroStillOne(entries: seq<Entry>, prefix: string)
    requires |Matches(entries, prefix)| >= 1
    ensures |Selected(entries, prefix, EffectiveMaxKeys(Some(0)))| == 1
  {
  }

  /** A listing holds at most `max(1, min(max-keys, 1000))` objects, so never
      more than 1000, whatever `max-keys` says. */
  lemma ListingBounded(entries: seq<Entry>, q: ListQuery)
    ensures var m := EffectiveMaxKeys(q.maxKeys);
            |Selected(entries, q.prefix.GetOr(""), m)| <= if m == 0 then 1 else m
    ensures |Selected(entries, q.prefix.GetOr(""), EffectiveMaxKeys(q.maxKeys))| <= MaxKeysLimit
  {
  }

  /** Keys to file contents: the regular files directly under the data directory. */
  type Store = map<string, Bytes>

  /** Status, headers (lower-case names) and body of a handler's reply. */
  datatype Response = Response(status: nat, headers: map<string, string>, body: Bytes)

  const Ok: nat := 200
  const NoContent: nat := 204
  const BadRequest: nat := 400
  const NotFound: nat := 404
  const InternalError: nat := 500

  /** Whether `fs::read` of a stored file fails; a missing file always fails to read. */
  datatype ReadFault = ReadOk | ReadFails

  /** `get_object`: the contents with their ETag and length, or 404 when the
      key is absent or its file cannot be read. */
  function GetObject(c: Crypto, store: Store, key: string, fault: ReadFault): (r: Response)
    ensures r.status == Ok <==> key in store && fault.ReadOk?
    ensures r.status != Ok ==> r.status == NotFound && r.body == []
    ensures r.status == Ok ==> r.body == store[key]
    ensures r.status == Ok ==> "etag" in r.headers && ETagDigest(r.headers["etag"]) == Some(c.sha256(store[key]))
    ensures r.status == Ok ==> "content-length" in r.headers
                               && r.headers["content-length"] == Decimal(|r.body|)
    ensures r.status == Ok ==> "accept-ranges" in r.headers && r.headers["accept-ranges"] == "bytes"
  {
    if key in store && fault.ReadOk? then
      var data := store[key];
      Response(Ok, map["etag" := ETag(c, data), "content-length" := Decimal(|data|), "accept-ranges" := "bytes"], data)
    else
      Response(NotFound, map[], [])
  }

  /** The ways `put_object` can fail before the file holds the body, in the
      order the handler meets them. A failing `write_all` is not modelled. */
  datatype PutFault = NoFault | DirCreateFails | CreateFails

  datatype Outcome = Outcome(response: Response, store: Store)

  /** `put_object`. `body` is `None` when reading the request body fails. */
  function PutObject(c: Crypto, store: Store, key: string, body: Option<Bytes>, fault: PutFault): (r: Outcome)
    ensures fault == DirCreateFails ==> r.response.status == InternalError && r.store == store
    ensures fault != DirCreateFails && body.None? ==> r.response.status == BadRequest && r.store == store
    ensures fault == CreateFails && body.Some? ==> r.response.status == InternalError && r.store == store
    ensures r.response.status == Ok <==> fault == NoFault && body.Some?
    ensures r.response.status == Ok ==> r.store == store[key := body.value]
    ensures r.response.status == Ok ==> "etag" in r.response.headers
                                        && ETagDigest(r.response.headers["etag"]) == Some(c.sha256(body.value))
  {
    if fault.DirCreateFails? then Outcome(Response(InternalError, map[], []), store)
    else if body.None? then Outcome(Response(BadRequest, map[], []), store)
    else if fault.CreateFails? then Outcome(Response(InternalError, map[], []), store)
    else Outcome(Response(Ok, map["etag" := ETag(c, body.value)], []), store[key := body.value])
  }

  /** Whether `remove_file` fails on a file that is there. */
  datatype RemoveFault = RemoveOk | RemoveFails

  /** `delete_object`: 204 whether or not the key was there and whether or
      not the removal worked; a failed removal keeps the file. */
  function DeleteObject(store: Store, key: string, fault: RemoveFault): (r: Outcome)
    ensures r.response.status == NoContent
    ensures fault.RemoveOk? ==> key !in r.store
    ensures fault.RemoveFails? ==> r.store == store
    ensures forall k :: k != key ==> (k in r.store <==> k in store) && (k in store ==> r.store[k] == store[k])
  {
    if fault.RemoveFails? then Outcome(Response(NoContent, map[], []), store)
    else Outcome(Response(NoContent, map[], []), store - {key})
  }

  /** `head_object`: the length, and an ETag of `key:length` rather than of
      the contents; 404 when absent. */
  function HeadObject(c: Crypto, store: Store, key: string): (r: Response)
    ensures r.status == Ok <==> key in store
    ensures key !in store ==> r.status == NotFound
    ensures r.body == []
    ensures key in store ==> "content-length" in r.headers
                             && r.headers["content-length"] == Decimal(|store[key]|)
    ensures key in store ==> "etag" in r.headers
                             && ETagDigest(r.headers["etag"]) == Some(c.sha256(Utf8(key + ":" + Decimal(|store[key]|))))
  {
    if key in store then
      var size := |store[key]|;
      Response(Ok, map["content-length" := Decimal(size), "etag" := ETag(c, Utf8(key + ":" + Decimal(size)))], [])
    else
      Response(NotFound, map[], [])
  }

  /** Reading back a stored object gives the stored bytes and the ETag the
      upload reported. */
  lemma PutThenGet(c: Crypto, store: Store, key: string, data: Bytes)
    ensures var put := PutObject(c, store, key, Some(data), NoFault);
            var got := GetObject(c, put.store, key, ReadOk);
            got.status == Ok && got.body == data && got.headers["etag"] == put.response.headers["etag"]
  {
  }

  /** An upload leaves every other key as it was. */
  lemma PutKeepsOthers(c: Crypto, store: Store, key: string, body: Option<Bytes>, fault: PutFault, other: string,
                       read: ReadFault)
    requires other != key
    ensures GetObject(c, PutObject(c, store, key, body, fault).store, other, read) == GetObject(c, store, other, read)
    ensures HeadObject(c, PutObject(c, store, key, body, fault).store, other) == HeadObject(c, store, other)
  {
  }

  /** Deleting again after a delete that removed the file changes nothing,
      whether or not the second removal fails. */
  lemma DeleteIdempotent(store: Store, key: string, fault: RemoveFault)
    ensures DeleteObject(DeleteObject(store, key, RemoveOk).store, key, fault) == DeleteObject(store, key, RemoveOk)
  {
  }

  /** After a delete that removed the file, `get` and `head` report 404. */
  lemma DeleteThenAbsent(c: Crypto, store: Store, key: string, read: ReadFault)
    ensures GetObject(c, DeleteObject(store, key, RemoveOk).store, key, read).status == NotFound
    ensures HeadObject(c, DeleteObject(store, key, RemoveOk).store, key).status == NotFound
  {
  }

  /** A delete whose removal fails still answers 204, and the object stays
      readable as before. */
  lemma DeleteFailureKeeps(c: Crypto, store: Store, key: string, read: ReadFault)
    ensures DeleteObject(store, key, RemoveFails).response.status == NoContent
    ensures GetObject(c, DeleteObject(store, key, RemoveFails).store, key, read) == GetObject(c, store, key, read)
    ensures HeadObject(c, DeleteObject(store, key, RemoveFails).store, key) == HeadObject(c, store, key)
  {
  }

  /** When the file can be read, `get` and `head` agree on presence and on the length. */
  lemma GetHeadAgree(c: Crypto, store: Store, key: string)
    ensures GetObject(c, store, key, ReadOk).status == HeadObject(c, store, key).status
    ensures key in store ==> GetObject(c, store, key, ReadOk).headers["content-length"]
                             == HeadObject(c, store, key).headers["content-length"]
  {
  }

  /** A stored file that cannot be read splits them: `get` answers 404
      while `head`, which reads only the metadata, answers 200. */
  lemma UnreadableSplitsGetHead(c: Crypto, store: Store, key: string)
    requires key in store
    ensures GetObject(c, store, key, ReadFails).status == NotFound
    ensures HeadObject(c, store, key).status == Ok
  {
  }

  /** `head` reports the same ETag as the listing for a regular file that the
      store holds under its name with the listed size. */
  lemma HeadMatchesListing(c: Crypto, store: Store, e: Entry)
    requires e.isFile && e.name in store && |store[e.name]| == e.size
    ensures HeadObject(c, store, e.name).headers["etag"] == InfoOf(c, e).etag
  {
  }

  /** The `head` ETag does not depend on the contents: two objects of the
      same length under one key get the same one. */
  lemma HeadIgnoresContents(c: Crypto, s1: Store, s2: Store, key: string)
    requires key in s1 && key in s2 && |s1[key]| == |s2[key]|
    ensures HeadObject(c, s1, key) == HeadObject(c, s2, key)
  {
  }

  /** With an injective SHA-256, the `get` ETag tells two contents apart. */
  lemma GetETagDistinguishes(c: Crypto, s1: Store, s2: Store, key: string)
    requires ShaInjective(c)
    requires key in s1 && key in s2 && s1[key] != s2[key]
    ensures GetObject(c, s1, key, ReadOk).headers["etag"] != GetObject(c, s2, key, ReadOk).headers["etag"]
  {
    ETagAgreement(c, s1[key], s2[key]);
  }
}

=== FILE: text.dfy ===
/** The `str` operations the gateway uses, written the way Rust's standard
    library defines them on sequences of Unicode scalar values: prefix tests,
    `split_once`, `split` (n separators give n+1 pieces, and the empty string
    splits into one empty piece), `trim`, byte-wise ordering and decimal
    formatting of integers. */
module Text {
  import opened Wrappers

  predicate StartsWith(s: string, p: string) {
    |p| <= |s| && s[..|p|] == p
  }

  /** `str::strip_prefix`. */
  function StripPrefix(s: string, p: string): (r: Option<string>)
    ensures r.Some? <==> StartsWith(s, p)
    ensures r.Some? ==> s == p + r.value
  {
    if StartsWith(s, p) then Some(s[|p|..]) else None
  }

  /** Position of the first occurrence of `c` (`str::find` with a char). */
  function IndexOf(s: string, c: char): (r: Option<nat>)
    ensures r.None? <==> c !in s
    ensures r.Some? ==> r.value < |s| && s[r.value] == c && c !in s[..r.value]
  {
    if |s| == 0 then None
    else if s[0] == c then Some(0)
    else
      match IndexOf(s[1..], c)
      case None => None
      case Some(i) =>
        assert s[..i + 1] == [s[0]] + s[1..][..i];
        Some(i + 1)
  }

  /** `str::split_once` with a char: the text before and after the FIRST `c`. */
  function SplitOnce(s: string, c: char): (r: Option<(string, string)>)
    ensures r.None? <==> c !in s
    ensures r.Some? ==> s == r.value.0 + [c] + r.value.1 && c !in r.value.0
  {
    match IndexOf(s, c)
    case None => None
    case Some(i) =>
      assert s == s[..i] + [c] + s[i + 1..];
      Some((s[..i], s[i + 1..]))
  }

  /** The split is determined by the first `c`: whatever precedes a `c`
      that is the first one is the left half. */
  lemma SplitOnceUnique(s: string, c: char, a: string, b: string)
    requires s == a + [c] + b && c !in a
    ensures SplitOnce(s, c) == Some((a, b))
  {
    assert s[|a|] == c;
    var x := SplitOnce(s, c).value.0;
    assert x == s[..|x|] && a == s[..|a|];
  }

  predicate OccursAt(s: string, pat: string, i: nat) {
    i + |pat| <= |s| && s[i..i + |pat|] == pat
  }

  /** Leftmost occurrence of a non-empty pattern, as Rust's searchers find it. */
  function Find(s: string, pat: string): (r: Option<nat>)
    requires |pat| > 0
    ensures r.Some? ==> OccursAt(s, pat, r.value)
    ensures r.Some? ==> forall i: nat :: i < r.value ==> !OccursAt(s, pat, i)
    ensures r.None? ==> forall i: nat :: !OccursAt(s, pat, i)
    decreases |s|
  {
    if |s| < |pat| then None
    else if s[..|pat|] == pat then Some(0)
    else
      var tail := Find(s[1..], pat);
      ShiftOccurs(s, pat);
      assert !OccursAt(s, pat, 0);
      match tail
      case None => None
      case Some(i) => Some(i + 1)
  }

  /** An occurrence at `i + 1` in `s` is an occurrence at `i` in `s[1..]`. */
  lemma ShiftOccurs(s: string, pat: string)
    requires |s| > 0
    ensures forall i: nat :: 0 < i ==> (OccursAt(s, pat, i) <==> OccursAt(s[1..], pat, i - 1))
  {
    forall i: nat | 0 < i
      ensures OccursAt(s, pat, i) <==> OccursAt(s[1..], pat, i - 1)
    {
      if i + |pat| <= |s| {
        assert s[1..][i - 1..i - 1 + |pat|] == s[i..i + |pat|];
      }
    }
  }

  predicate Contains(s: string, pat: string) {
    exists i: nat :: i <= |s| && OccursAt(s, pat, i)
  }

  /** `str::split` with a non-empty pattern: the pieces between the
      non-overlapping leftmost occurrences of `pat`. */
  function Split(s: string, pat: string): (r: seq<string>)
    requires |pat| > 0
    ensures |r| >= 1
    ensures forall k :: 0 <= k < |r| ==> !Contains(r[k], pat)
    decreases |s|
  {
    match Find(s, pat)
    case None => [s]
    case Some(i) =>
      PrefixFree(s, pat, i);
      [s[..i]] + Split(s[i + |pat|..], pat)
  }

  /** A prefix of `s` ending before the first occurrence holds no occurrence. */
  lemma PrefixFree(s: string, pat: string, n: nat)
    requires |pat| > 0 && n <= |s|
    requires forall i: nat :: i < n ==> !OccursAt(s, pat, i)
    ensures !Contains(s[..n], pat)
  {
    forall i: nat | OccursAt(s[..n], pat, i)
      ensures false
    {
      assert s[..n][i..i + |pat|] == s[i..i + |pat|];
      assert OccursAt(s, pat, i);
    }
  }

  /** Inverse of `Split`: the pieces glued back with the separator. */
  function Join(ps: seq<string>, sep: string): string {
    if |ps| == 0 then ""
    else if |ps| == 1 then ps[0]
    else ps[0] + sep + Join(ps[1..], sep)
  }

  lemma JoinCons(p: string, ps: seq<string>, sep: string)
    requires |ps| >= 1
    ensures Join([p] + ps, sep) == p + sep + Join(ps, sep)
  {
    assert ([p] + ps)[1..] == ps;
  }

  /** Splitting and joining again gives back the original text. */
  lemma {:induction false} JoinSplit(s: string, pat: string)
    requires |pat| > 0
    ensures Join(Split(s, pat), pat) == s
    decreases |s|
  {
    match Find(s, pat)
    case None =>
    case Some(i) =>
      var rest := s[i + |pat|..];
      var tail := Split(rest, pat);
      assert Split(s, pat) == [s[..i]] + tail;
      JoinSplit(rest, pat);
      assert Join([s[..i]] + tail, pat) == s[..i] + pat + Join(tail, pat) by {
        assert ([s[..i]] + tail)[1..] == tail;
      }
      assert s == s[..i] + pat + rest;
  }

  /** Joining pieces that do not contain the separator's first character and
      splitting again gives back the pieces. */
  lemma {:induction false} SplitJoin(ps: seq<string>, pat: string)
    requires |pat| > 0 && |ps| >= 1
    requires forall k :: 0 <= k < |ps| ==> pat[0] !in ps[k]
    ensures Split(Join(ps, pat), pat) == ps
    decreases |ps|
  {
    var s := Join(ps, pat);
    if |ps| == 1 {
      NoLeadNoFind(s, pat);
    } else {
      var rest := Join(ps[1..], pat);
      assert s == ps[0] + pat + rest;
      var n := |ps[0]|;
      assert OccursAt(s, pat, n) by {
        assert s[n..n + |pat|] == pat;
      }
      forall i: nat | i < n
        ensures !OccursAt(s, pat, i)
      {
        assert s[i] == ps[0][i];
      }
      var f := Find(s, pat);
      assert f == Some(n) by {
        if f.None? {
        } else if f.value < n {
        } else if f.value > n {
        }
      }
      assert s[..n] == ps[0];
      assert s[n + |pat|..] == rest;
      SplitJoin(ps[1..], pat);
    }
  }

  lemma NoLeadNoFind(s: string, pat: string)
    requires |pat| > 0 && pat[0] !in s
    ensures Find(s, pat) == None
  {
    forall i: nat | i + |pat| <= |s|
      ensures !OccursAt(s, pat, i)
    {
      assert s[i..i + |pat|][0] == s[i];
    }
  }

  /** A character absent from every piece and from the separator is absent
      from the joined text. */
  lemma {:induction false} JoinAvoids(ps: seq<string>, sep: string, c: char)
    requires c !in sep
    requires forall k :: 0 <= k < |ps| ==> c !in ps[k]
    ensures c !in Join(ps, sep)
    decreases |ps|
  {
    if |ps| > 1 {
      JoinAvoids(ps[1..], sep, c);
    }
  }

  /** Texts that agree around a middle part agree on the middle part. */
  lemma MiddleCancel(a: string, x: string, y: string, b: string)
    requires a + x + b == a + y + b
    ensures x == y
  {
    var s := a + x + b;
    assert |x| == |y|;
    assert x == s[|a|..|a| + |x|];
  }

  /** `char::is_whitespace`: the Unicode White_Space property. */
  predicate IsWhitespace(c: char) {
    var n := c as int;
    (0x09 <= n <= 0x0D) || n == 0x20 || n == 0x85 || n == 0xA0 || n == 0x1680
    || (0x2000 <= n <= 0x200A) || n == 0x2028 || n == 0x2029 || n == 0x202F
    || n == 0x205F || n == 0x3000
  }

  /** `str::trim_start`: the suffix of `s` after its leading whitespace. */
  function TrimStart(s: string): (r: string)
    ensures |r| <= |s| && r == s[|s| - |r|..]
    ensures forall i :: 0 <= i < |s| - |r| ==> IsWhitespace(s[i])
    ensures r == [] || !IsWhitespace(r[0])
  {
    if |s| > 0 && IsWhitespace(s[0]) then TrimStart(s[1..]) else s
  }

  /** `str::trim_end`: the prefix of `s` before its trailing whitespace. */
  function TrimEnd(s: string): (r: string)
    ensures |r| <= |s| && r == s[..|r|]
    ensures forall i :: |r| <= i < |s| ==> IsWhitespace(s[i])
    ensures r == [] || !IsWhitespace(r[|r| - 1])
  {
    if |s| > 0 && IsWhitespace(s[|s| - 1]) then TrimEnd(s[..|s| - 1]) else s
  }

  /** `str::trim`: `s` without its leading and trailing whitespace. */
  function Trim(s: string): (r: string)
    ensures |r| <= |s|
    ensures r == [] || (!IsWhitespace(r[0]) && !IsWhitespace(r[|r| - 1]))
  {
    TrimEnd(TrimStart(s))
  }

  /** Whitespace added around a value disappears again under `Trim`. */
  lemma TrimPadding(pre: string, v: string, post: string)
    requires forall i :: 0 <= i < |pre| ==> IsWhitespace(pre[i])
    requires forall i :: 0 <= i < |post| ==> IsWhitespace(post[i])
    ensures Trim(pre + v + post) == Trim(v)
  {
    assert pre + v + post == pre + (v + post);
    TrimStartSkips(pre, v + post);
    var t := TrimStart(v);
    if t == [] {
      TrimStartSkips(v, post);
      assert v + post == v + post + [];
    } else {
      TrimStartKeeps(v, post);
      TrimEndSkips(t, post);
    }
  }

  lemma {:induction false} TrimStartSkips(pre: string, rest: string)
    requires forall i :: 0 <= i < |pre| ==> IsWhitespace(pre[i])
    ensures TrimStart(pre + rest) == TrimStart(rest)
    decreases |pre|
  {
    if |pre| > 0 {
      assert (pre + rest)[0] == pre[0];
      assert (pre + rest)[1..] == pre[1..] + rest;
      TrimStartSkips(pre[1..], rest);
    } else {
      assert pre + rest == rest;
    }
  }

  lemma {:induction false} TrimStartKeeps(v: string, post: string)
    requires TrimStart(v) != []
    ensures TrimStart(v + post) == TrimStart(v) + post
    decreases |v|
  {
    assert (v + post)[0] == v[0];
    if IsWhitespace(v[0]) {
      assert (v + post)[1..] == v[1..] + post;
      TrimStartKeeps(v[1..], post);
    }
  }

  lemma {:induction false} TrimEndSkips(body: string, post: string)
    requires forall i :: 0 <= i < |post| ==> IsWhitespace(post[i])
    ensures TrimEnd(body + post) == TrimEnd(body)
    decreases |post|
  {
    if |post| > 0 {
      assert (body + post)[..|body + post| - 1] == body + post[..|post| - 1];
      TrimEndSkips(body, post[..|post| - 1]);
    } else {
      assert body + post == body;
    }
  }

  /** The byte-wise order Rust uses for `&str` and `String`. On UTF-8 it
      coincides with the order of the scalar values, which is what is
      compared here. */
  predicate LessEq(a: string, b: string)
    decreases |a|
  {
    |a| == 0 || (|b| > 0 && (a[0] < b[0] || (a[0] == b[0] && LessEq(a[1..], b[1..]))))
  }

  lemma {:induction false} LessEqReflexive(a: string)
    ensures LessEq(a, a)
    decreases |a|
  {
    if |a| > 0 {
      LessEqReflexive(a[1..]);
    }
  }

  lemma {:induction false} LessEqTotal(a: string, b: string)
    ensures LessEq(a, b) || LessEq(b, a)
    decreases |a|
  {
    if |a| > 0 && |b| > 0 && a[0] == b[0] {
      LessEqTotal(a[1..], b[1..]);
    }
  }

  lemma {:induction false} LessEqAntisymmetric(a: string, b: string)
    requires LessEq(a, b) && LessEq(b, a)
    ensures a == b
    decreases |a|
  {
    if |a| > 0 {
      LessEqAntisymmetric(a[1..], b[1..]);
      assert a == [a[0]] + a[1..] && b == [b[0]] + b[1..];
    }
  }

  lemma {:induction false} LessEqTransitive(a: string, b: string, c: string)
    requires LessEq(a, b) && LessEq(b, c)
    ensures LessEq(a, c)
    decreases |a|
  {
    if |a| > 0 && a[0] == b[0] && b[0] == c[0] {
      LessEqTransitive(a[1..], b[1..], c[1..]);
    }
  }

  /** ASCII lower-casing, as `HeaderMap::get(&str)` normalises a name. */
  function AsciiLower(s: string): (r: string)
    ensures |r| == |s|
    ensures forall i :: 0 <= i < |s| ==> (if 'A' <= s[i] <= 'Z' then r[i] as int == s[i] as int + 32 else r[i] == s[i])
  {
    if |s| == 0 then ""
    else
      var c := s[0];
      var lc := if 'A' <= c <= 'Z' then (c as int + 32) as char else c;
      [lc] + AsciiLower(s[1..])
  }

  predicate IsDigit(c: char) {
    '0' <= c <= '9'
  }

  function DigitChar(d: nat): (c: char)
    requires d < 10
    ensures IsDigit(c) && c as int - '0' as int == d
  {
    ('0' as int + d) as char
  }

  /** Decimal rendering of an integer (`Display` for `u64`). */
  function Decimal(n: nat): (r: string)
    ensures |r| >= 1
    ensures forall i :: 0 <= i < |r| ==> IsDigit(r[i])
    ensures r[0] == '0' ==> n == 0
  {
    if n < 10 then [DigitChar(n)] else Decimal(n / 10) + [DigitChar(n % 10)]
  }

  function DigitValue(c: char): nat
    requires IsDigit(c)
  {
    c as int - '0' as int
  }

  /** Value of a string of decimal digits: the partner of `Decimal`. */
  function DigitsValue(s: string): nat
    requires forall i :: 0 <= i < |s| ==> IsDigit(s[i])
  {
    if |s| == 0 then 0
    else DigitsValue(s[..|s| - 1]) * 10 + DigitValue(s[|s| - 1])
  }

  lemma {:induction false} DecimalRoundTrip(n: nat)
    ensures DigitsValue(Decimal(n)) == n
  {
    if n >= 10 {
      DecimalRoundTrip(n / 10);
      var d := Decimal(n);
      assert d[..|d| - 1] == Decimal(n / 10);
    }
  }
}

=== FILE: wrappers.dfy ===
/** `Option`, for the Rust `Option<_>` values and their `unwrap_or` fallbacks. */
module Wrappers {

  datatype Option<+T> = None | Some(value: T) {

    /** `Option::unwrap_or`: the value, or `default` when absent. */
    function GetOr(default: T): T {
      match this
      case Some(v) => v
      case None => default
    }
  }
}
